=== FILE: README.md ===
# SMS gateway dashboard: dispatch endpoints, billing webhook and page rules in Dafny

The system is a dashboard for sending SMS and WhatsApp messages through
configured provider gateways (Twilio, Twilio WhatsApp, MessageBird). Its
server side is a set of Supabase edge functions:

- three send endpoints post one message to a provider and then mark the
  matching `pending` rows of the `messages` ledger `sent`;
- two balance endpoints read a gateway's account balance;
- a Stripe webhook turns checkout and subscription events into rows of
  `customer_subscriptions` and `payments`.

Its client side adds a few rules on three pages:

- the Send SMS form's schema and its balance gate;
- the admin User Management mutations;
- the Messages page's search filter and status badges.

Each handler is modelled as a pure function. It takes the request and the
answers of the outside world as inputs: environment variables, the `gateways`
lookup, the provider's reply, the result of each table write, and the clock.
It returns an `Outcome`: the response, plus the gateway id it looked up, the
provider requests it issued in order, and the `messages` table after its
write. A handler's guards are also listed separately, as a sequence of
checks (`Guards`). `Common.FirstFailure` gives such a sequence its meaning,
and a lemma per endpoint proves that the handler answers with the first
failing guard's error.

Modules follow the source:

| module | models |
|---|---|
| `Common` | options and JavaScript truthiness, fetch/write outcomes, guard chains, filtered bulk updates |
| `Decimal` | numbers rendered by template literals; `parseInt` |
| `Ledger` | the `messages` rows and the pending-to-sent update |
| `Gateway` | what the five gateway endpoints share |
| `SendTwilioSms`, `SendWhatsAppMessage`, `SendMessageBirdSms`, `GetTwilioCredits`, `GetMessageBirdCredits`, `StripeWebhook` | one edge function each |
| `SendSmsPage`, `UserManagement`, `MessagesPage` | the page rules |

Three behaviours of the code are easy to misread:

- The Send SMS page inserts an immediate message with status `sent`, not
  `pending` (project/src/pages/SendSMS.tsx:108). So no send endpoint's
  pending-to-sent update ever selects that row (`SendSmsPage.ImmediateRowNeverReconciled`).
- The two Twilio endpoints answer a missing gateway row with "Gateway not
  found" (project/supabase/functions/send-twilio-sms/index.ts:51-53). A lookup
  error still gets "Gateway not found or access denied". The WhatsApp and
  MessageBird endpoints answer a missing row with "Invalid gateway provider".
- The WhatsApp and MessageBird endpoints have no inner `try`. A failing
  provider request is therefore reported without a "Failed to send SMS: "
  prefix. Only send-twilio-sms and get-twilio-credits add one.

## Model

| member | source | states |
|---|---|---|
| Common.FirstFailureMeaning | project/supabase/functions/send-twilio-sms/index.ts:19-63 | a chain of `if (!cond) throw` guards reports nothing exactly when every guard passes; otherwise it reports the error of a failing guard all of whose predecessors pass |
| Common.FirstFailureAt | project/supabase/functions/send-twilio-sms/index.ts:19-63 | when guards 0..i-1 pass and guard i fails, the chain reports guard i's error, whatever the later guards say |
| Common.UpdateWhere | project/supabase/functions/stripe-webhook/index.ts:105-113 | an `update(...).eq(...)` replaces each row the filter selects by its changed copy; every other row is unchanged; no row is added, removed or moved |
| Decimal.NatToString | project/supabase/functions/send-twilio-sms/index.ts:87 | `${status}` renders a non-negative number as at least one decimal digit, without a leading zero |
| Decimal.ValueOfNatToString | project/supabase/functions/send-twilio-sms/index.ts:87 | the rendered digits denote the number rendered |
| Decimal.ParseIntReadsRenderedNumber | project/src/pages/admin/UserManagement.tsx:413 | `parseInt` reads back a rendered number and stops at the first non-digit that follows |
| Decimal.ParseIntReadsRenderedNegative | project/src/pages/admin/UserManagement.tsx:413 | `parseInt` reads a minus sign followed by a rendered number as its negation |
| Decimal.NoDigitsParsesAsZero | project/src/pages/admin/UserManagement.tsx:413 | text without a decimal digit is `NaN`, so `parseInt(...) \|\| 0` gives 0 |
| Ledger.MarkSent | project/supabase/functions/send-twilio-sms/index.ts:91-100 | exactly the rows the filter selects (same gateway, recipient and, when filtered on, text; status `pending`) become `sent` with `sent_at` = now; other rows are unchanged; the length is kept |
| Ledger.MarkSentIdempotent | project/supabase/functions/send-twilio-sms/index.ts:91-100 | after the update no row matches the filter any more, so repeating it at any later time changes nothing |
| Ledger.MarkSentOnlyAdvancesPending | project/supabase/functions/send-twilio-sms/index.ts:93-100 | the update keeps each row's id, gateway, recipient, text and schedule; a status can only change from `pending` to `sent` |
| Ledger.TextlessFilterIsWider | project/supabase/functions/send-whatsapp-message/index.ts:102-110 | the WhatsApp filter without the text condition selects every row the SMS filter does, plus pending rows of that recipient with other text |
| Gateway.Reject | project/supabase/functions/send-twilio-sms/index.ts:119-127 | every failure is a 400 whose error is the thrown message, or "An unexpected error occurred" when that message is empty; it is never empty |
| SendTwilioSms.Handle | project/supabase/functions/send-twilio-sms/index.ts:10-127 | OPTIONS gets 204 with no lookup, call or write; the lookup uses the requested id and happens only after auth, params and config pass; Twilio gets at most one form post (To, From, Body) with the account's Basic credentials, only after all validation; success means a 2xx reply, gives back sid and status, and writes the pending-to-sent update; every failure is a non-empty 400 and leaves the ledger unchanged |
| SendTwilioSms.GuardOrder | project/supabase/functions/send-twilio-sms/index.ts:19-28 | past the preflight, the response is the first failing guard's error (auth, body, params, config, lookup error, missing row, provider, credentials), with no provider call and no write; when none fails, Twilio is called once |
| SendTwilioSms.LateGuards | project/supabase/functions/send-twilio-sms/index.ts:30-53 | the same first-failure property, for requests past the first three guards (configuration, lookup error, missing row) |
| SendTwilioSms.FinalGuards | project/supabase/functions/send-twilio-sms/index.ts:55-63 | the same, for the provider and credential guards, and exactly one call when all pass |
| SendTwilioSms.AuthHeaderFirst | project/supabase/functions/send-twilio-sms/index.ts:19-22 | a missing or empty Authorization header gives "Missing authorization header", whatever the body, environment or gateway, with no lookup, call or write |
| SendTwilioSms.ProviderErrors | project/supabase/functions/send-twilio-sms/index.ts:83-117 | once validation has passed: a thrown request fails with "Failed to send SMS: " + its reason; a non-2xx reply fails with the prefix + (Twilio's message, or "Twilio API error: <status>"); success happens exactly when the reply is 2xx |
| SendTwilioSms.LedgerErrorSwallowed | project/supabase/functions/send-twilio-sms/index.ts:102-113 | a failed ledger update gives the same response as a successful one, and the ledger is left as it was |
| SendTwilioSms.SuccessMarksOnlyMatchingRows | project/supabase/functions/send-twilio-sms/index.ts:91-100 | on success, the pending rows with the same gateway, recipient and text become `sent` at now; every other row is unchanged |
| SendWhatsAppMessage.Form | project/supabase/functions/send-whatsapp-message/index.ts:59-79 | a form exists iff a template id or a message is given; it starts `From=whatsapp:<number>`, `To=whatsapp:<recipient>`; with a template it holds ContentSid, holds ContentVariables iff variables are given, and holds no Body; otherwise it ends with exactly `Body=message` |
| SendWhatsAppMessage.Handle | project/supabase/functions/send-whatsapp-message/index.ts:10-135 | preflight and lookup as for SMS; only gateway id and recipient are required; Twilio is called only for a `whatsapp_twilio` gateway with sid, token and number and something to send, with the form above; success passes Twilio's whole reply on as `details` and reconciles the ledger without the text condition; failures are non-empty 400s and leave the ledger unchanged |
| SendWhatsAppMessage.GuardOrder | project/supabase/functions/send-whatsapp-message/index.ts:19-28 | past the preflight, the response is the first failing guard's error (auth, body, params, config, lookup, provider, credentials, content), with no call; when none fails, one call |
| SendWhatsAppMessage.LateGuards | project/supabase/functions/send-whatsapp-message/index.ts:30-51 | the same, for requests past the first three guards (configuration, lookup error, a null row or another provider) |
| SendWhatsAppMessage.FinalGuards | project/supabase/functions/send-whatsapp-message/index.ts:53-79 | the same, for the credential and content guards ("Either template_sid or message is required") |
| SendWhatsAppMessage.ProviderErrors | project/supabase/functions/send-whatsapp-message/index.ts:94-99 | once validation has passed, a non-2xx reply fails with Twilio's message or "Twilio API error: <status>", with no prefix; a thrown request fails with its own reason; success happens exactly when the reply is 2xx |
| SendWhatsAppMessage.TemplateWins | project/supabase/functions/send-whatsapp-message/index.ts:70-76 | with both a template id and a message, the form holds ContentSid and no Body |
| SendWhatsAppMessage.PrefixedNumbers | project/supabase/functions/send-whatsapp-message/index.ts:60-67 | sending to +15551234567 from +15559876543 gives From=whatsapp:+15559876543 and To=whatsapp:+15551234567 |
| SendWhatsAppMessage.LedgerErrorSwallowed | project/supabase/functions/send-whatsapp-message/index.ts:112-124 | a failed ledger update changes neither the response nor the ledger |
| SendWhatsAppMessage.SuccessMarksEveryPendingRowOfRecipient | project/supabase/functions/send-whatsapp-message/index.ts:102-110 | on success every pending row to that recipient on that gateway becomes `sent`, whatever its text; all other rows are unchanged |
| SendMessageBirdSms.Handle | project/supabase/functions/send-messagebird-sms/index.ts:10-113 | preflight and lookup as for Twilio SMS; MessageBird gets one JSON post with `AccessKey <api_key>` and `{originator, recipients: [recipient], body}`, only for a `messagebird` gateway with a key and an originator; success gives back id and status and reconciles with the text condition; failures are non-empty 400s that leave the ledger unchanged |
| SendMessageBirdSms.GuardOrder | project/supabase/functions/send-messagebird-sms/index.ts:19-28 | past the preflight, the response is the first failing guard's error (auth, body, params, config, lookup, provider, credentials), with no call; when none fails, one call |
| SendMessageBirdSms.LateGuards | project/supabase/functions/send-messagebird-sms/index.ts:30-51 | the same, for requests past the first three guards |
| SendMessageBirdSms.FinalGuards | project/supabase/functions/send-messagebird-sms/index.ts:53-57 | the same, for the credential guard |
| SendMessageBirdSms.ProviderErrors | project/supabase/functions/send-messagebird-sms/index.ts:73-76 | once validation has passed, a non-2xx reply fails with the first error's description when it is a non-empty string, else "Failed to send message"; success happens exactly when the reply is 2xx |
| SendMessageBirdSms.LedgerErrorSwallowed | project/supabase/functions/send-messagebird-sms/index.ts:92-103 | a failed ledger update changes neither the response nor the ledger |
| GetTwilioCredits.Handle | project/supabase/functions/get-twilio-credits/index.ts:10-133 | Twilio is asked only for a `twilio` gateway with a sid and a token; the Balance request comes first, and the account request follows iff the balance reply was 2xx, both with the same Basic credentials; success needs both replies 2xx and merges balance and currency with type, status and date_created; the ledger is untouched |
| GetTwilioCredits.GuardOrder | project/supabase/functions/get-twilio-credits/index.ts:21-40 | past the preflight, the response is the first failing guard's error (auth, gateway id, config, lookup error, missing row, provider, credentials), with no call; when none fails, the Balance request is made |
| GetTwilioCredits.LateGuards | project/supabase/functions/get-twilio-credits/index.ts:45-62 | the same, for requests past the first three guards |
| GetTwilioCredits.FinalGuards | project/supabase/functions/get-twilio-credits/index.ts:64-68 | the same, for the credential guard |
| GetTwilioCredits.EitherFailureFails | project/supabase/functions/get-twilio-credits/index.ts:82-122 | if either request throws or answers non-2xx, the call fails with "Failed to fetch Twilio balance: " + (the reason, Twilio's message, or "Twilio API error: <status>") of the failing request; there is no partial result |
| GetTwilioCredits.SenderNumberNotRequired | project/supabase/functions/get-twilio-credits/index.ts:64-80 | a gateway holding only a sid and a token still gets its Balance request |
| GetTwilioCredits.MergeExample | project/supabase/functions/get-twilio-credits/index.ts:109-115 | the replies `{balance "3.40", currency "USD"}` and `{type "Trial", status "active", date_created "2023-01-01"}` merge into one result with those five values |
| GetMessageBirdCredits.Handle | project/supabase/functions/get-messagebird-credits/index.ts:10-91 | MessageBird is asked once, with `AccessKey <api_key>`, and only for a `messagebird` gateway with a key; success reports balance = amount and currency = type; once MessageBird is called, a 2xx reply returns exactly that balance and a thrown request fails with its message; the ledger is untouched |
| GetMessageBirdCredits.GuardOrder | project/supabase/functions/get-messagebird-credits/index.ts:19-36 | past the preflight, the response is the first failing guard's error (auth, gateway id, config, lookup, provider, API key), with no call; when none fails, one call |
| GetMessageBirdCredits.LateGuards | project/supabase/functions/get-messagebird-credits/index.ts:46-58 | the same, for requests past the first three guards |
| GetMessageBirdCredits.OriginatorNotRequired | project/supabase/functions/get-messagebird-credits/index.ts:54-66 | a gateway holding only an API key still gets its balance request |
| GetMessageBirdCredits.ProviderErrors | project/supabase/functions/get-messagebird-credits/index.ts:61-85 | once every guard passes: a thrown request fails with its own message (or "An unexpected error occurred" when empty); a non-2xx reply fails with the first error's description, else "Failed to fetch balance"; success happens exactly when the reply is 2xx, and then the response is `{ balance: amount, currency: type }` |
| GetMessageBirdCredits.NormaliseExample | project/supabase/functions/get-messagebird-credits/index.ts:75-78 | `{amount 12.5, type "EUR"}` becomes `{balance 12.5, currency "EUR"}` |
| StripeWebhook.Owner | project/supabase/functions/stripe-webhook/index.ts:29-33 | an object yields its (userId, planId) pair iff it has metadata in which both are non-empty strings |
| StripeWebhook.Amount | project/supabase/functions/stripe-webhook/index.ts:57 | a missing total is recorded as 0; otherwise 100 times the amount equals the total in cents |
| StripeWebhook.OnCheckoutCompleted | project/supabase/functions/stripe-webhook/index.ts:27-68 | missing metadata fails with "Missing metadata" and no write; on success one active, auto-renewing subscription running from now to now + 30 days and one completed payment are appended; a payment is recorded only if the subscription insert succeeded |
| StripeWebhook.OnSubscriptionUpdated | project/supabase/functions/stripe-webhook/index.ts:70-94 | every row of the user and plan becomes `active` and auto-renewing iff Stripe says "active", `cancelled` and not renewing otherwise, with end = current_period_end·1000; other rows and the payments are unchanged; a failure writes nothing |
| StripeWebhook.OnSubscriptionDeleted | project/supabase/functions/stripe-webhook/index.ts:96-120 | every row of the user and plan becomes `expired`, not renewing, ending now; other rows and the payments are unchanged; a failure writes nothing |
| StripeWebhook.ClientError | project/supabase/functions/stripe-webhook/index.ts:21-24 | building the Supabase client fails iff the URL or the service-role key is unset or empty, with "supabaseUrl is required." exactly when the URL is the missing one |
| StripeWebhook.Handle | project/supabase/functions/stripe-webhook/index.ts:12-137 | a missing signature gives "No signature" and no write; a refused signature gives 400 with Stripe's reason and no write; a verified event without a Supabase URL or key gives 400 with the client's message and no write; otherwise a checkout runs the checkout transition, an update the renewal and a deletion the expiry, each with its own write results; only a checkout adds subscription or payment rows; a 200 needs a verified signature and a configured client |
| StripeWebhook.CheckoutRecordsSubscriptionAndPayment | project/supabase/functions/stripe-webhook/index.ts:26-67 | a signed, verified checkout with a configured client and both inserts accepted gets 200 and adds one active subscription and one payment for the metadata's user |
| StripeWebhook.UnconfiguredStoreRefusesEverything | project/supabase/functions/stripe-webhook/index.ts:12-24 | without a Supabase URL or key every call is answered 400 and no table changes |
| StripeWebhook.OtherEventsIgnored | project/supabase/functions/stripe-webhook/index.ts:26-126 | any other event type is acknowledged with 200 and writes nothing |
| StripeWebhook.MetadataRequired | project/supabase/functions/stripe-webhook/index.ts:98-102 | for each of the three handled events, metadata without a user or a plan fails with "Missing metadata" and writes nothing |
| StripeWebhook.PaymentFailureKeepsSubscription | project/supabase/functions/stripe-webhook/index.ts:36-65 | a failed payment insert returns 400 but leaves the new active subscription in place |
| StripeWebhook.CheckoutReplayDuplicates | project/supabase/functions/stripe-webhook/index.ts:36-61 | a redelivered checkout adds a second subscription and a second payment |
| StripeWebhook.UpdateReplayIdempotent | project/supabase/functions/stripe-webhook/index.ts:79-87 | a redelivered subscription update leaves the tables as the first delivery did |
| StripeWebhook.DeleteReplayOnlyMovesEnd | project/supabase/functions/stripe-webhook/index.ts:105-113 | a redelivered deletion changes only the end date |
| StripeWebhook.RenewsIffActivePreserved | project/supabase/functions/stripe-webhook/index.ts:38-113 | every event keeps the table invariant "auto_renew exactly when status is active" |
| Common.JsLength | project/src/pages/SendSMS.tsx:15 | a string's JavaScript length, in UTF-16 code units, lies between its character count and twice that, and is zero only for the empty string |
| Common.JsLengthOfAstral | project/src/pages/SendSMS.tsx:15 | text made only of characters beyond the Basic Multilingual Plane has two code units per character |
| SendSmsPage.Validate | project/src/pages/SendSMS.tsx:11-17 | a form is accepted iff gateway, sender and recipient are non-empty and the message has 1 to 160 UTF-16 code units, and it keeps the values; a rejection lists one to four issues, all on those fields |
| SendSmsPage.MessageLengthBoundary | project/src/pages/SendSMS.tsx:15 | 160 code units pass; 161 are rejected with exactly the "Message must be less than 160 characters" issue |
| SendSmsPage.AstralMessageCountsTwice | project/src/pages/SendSMS.tsx:15 | a message of 81 emoji (162 code units) is rejected as too long, while 80 emoji pass |
| SendSmsPage.FindGateway | project/src/pages/SendSMS.tsx:49 | `find` gives nothing iff no gateway has the selected id; otherwise it gives the first gateway that has it |
| SendSmsPage.FirstWithId | project/src/pages/SendSMS.tsx:57 | the first entry with the given id, if any |
| SendSmsPage.DoubleNot | project/src/pages/SendSMS.tsx:80 | `!!v` is the boolean that is `v`'s JavaScript truthiness: false for `false`, the empty string and `undefined`, true otherwise |
| SendSmsPage.EnabledAsWrittenNeverHolds | project/src/pages/SendSMS.tsx:80 | the query's `enabled` flag, as written, is false for every gateway list and selection |
| SendSmsPage.EnabledIntendedForTwilio | project/src/pages/SendSMS.tsx:80 | for a selected Twilio gateway the intended flag holds and the written one does not |
| SendSmsPage.QueryFn | project/src/pages/SendSMS.tsx:54-79 | get-twilio-credits is called only for the selected id and with the session's token; loaded credits come from a 2xx answer; a missing token fails with "No access token found" and makes no call |
| SendSmsPage.QueryFnMatchesIntendedFlag | project/src/pages/SendSMS.tsx:55-58 | the query function returns null exactly when the intended flag is off, and calls the endpoint exactly when the flag is on and a token exists |
| SendSmsPage.CreditsHeld | project/src/pages/SendSMS.tsx:52-85 | the page holds credits iff the query is enabled and loaded them |
| SendSmsPage.InitialStatus | project/src/pages/SendSMS.tsx:108 | the new row is `pending` iff a schedule is given, otherwise `sent` |
| SendSmsPage.Caught | project/src/pages/SendSMS.tsx:149-157 | an error toast shows the error's message, or the fallback when it is empty; it is never empty |
| SendSmsPage.Submit | project/src/pages/SendSMS.tsx:87-161 | without a positive balance nothing is inserted or sent and the balance toast is shown; the inserted row carries the form's gateway, recipient and text, and its schedule or null when the schedule is empty, pending iff scheduled; the send goes out exactly when the balance is positive, the row was stored, the message is immediate and a session token is at hand, with that token and the form's fields; success iff the row was stored and, if immediate, the send answered 2xx; the form is reset iff it succeeded |
| SendSmsPage.SuccessToastText | project/src/pages/SendSMS.tsx:141-148 | the success toast says "scheduled" for a scheduled message and "sent" for an immediate one |
| SendSmsPage.FailedSendLeavesSentRow | project/src/pages/SendSMS.tsx:103-139 | a failed immediate send shows an error yet leaves the stored row saying `sent` |
| SendSmsPage.ButtonAgreesWithGate | project/src/pages/SendSMS.tsx:315 | an enabled button never meets the balance refusal; when not loading and a gateway is selected, the button is disabled exactly when the submit handler would refuse |
| SendSmsPage.SubmitAlwaysBlockedAsWritten | project/src/pages/SendSMS.tsx:80-98 | with the flag as written the button is always disabled and every submission is refused without a write |
| SendSmsPage.IntendedFlagAllowsSubmit | project/src/pages/SendSMS.tsx:52-103 | with the intended flag, a selected Twilio gateway with a positive loaded balance enables the button and lets the submission reach the insert |
| SendSmsPage.ImmediateRowNeverReconciled | project/src/pages/SendSMS.tsx:103-109 | an immediate message's stored row is never selected by any send endpoint's pending-to-sent filter |
| SendSmsPage.ScheduledRowMatchedBySameSend | project/src/pages/SendSMS.tsx:103-109 | a scheduled message's row is selected by the SMS filter for the same gateway, recipient and text |
| SendSmsPage.ValidFormPassesParamsCheck | project/src/pages/SendSMS.tsx:126-131 | the payload of a validated form passes send-twilio-sms's "Missing required parameters" check |
| UserManagement.AddUser | project/src/pages/admin/UserManagement.tsx:35-83 | an email already in `users` is refused before sign-up; sign-up is attempted iff it is not; a profile (role chosen, credits 0) is inserted iff sign-up returned a user whose profile does not yet exist; success iff signed up and the profile exists or was stored |
| UserManagement.SignUpWithoutUser | project/src/pages/admin/UserManagement.tsx:57-59 | a sign-up that returns no user gives "Failed to create user account" and inserts nothing |
| UserManagement.EditFormFor | project/src/pages/admin/UserManagement.tsx:164-171 | the edit form starts from the user's email and role, with an empty password |
| UserManagement.EditPayloadOf | project/src/pages/admin/UserManagement.tsx:358-364 | the payload carries the email iff it differs from the current one, the password iff it is non-empty, and the role always |
| UserManagement.UpdateUser | project/src/pages/admin/UserManagement.tsx:96-122 | an auth update is issued iff email or password is truthy, and holds exactly the truthy ones; a refused auth update stops before the profile update; the profile update carries the payload's email and role; success iff both writes that ran succeeded |
| UserManagement.SavedProfileMatchesForm | project/src/pages/admin/UserManagement.tsx:114-120 | saving stores the form's email and role in the profile row; id and credits are untouched |
| UserManagement.UnchangedSaveIsNoOp | project/src/pages/admin/UserManagement.tsx:358-364 | opening the editor and saving unchanged sends no auth update and leaves the profile row as it was |
| UserManagement.ClearedEmailOnlyReachesProfile | project/src/pages/admin/UserManagement.tsx:99-120 | clearing the email sends `""`: the auth email is kept (it is falsy) but the profile email becomes empty |
| UserManagement.CreditAmount | project/src/pages/admin/UserManagement.tsx:413 | the field's amount is what `parseInt` reads, or 0 when it reads `NaN` |
| UserManagement.AddCredits | project/src/pages/admin/UserManagement.tsx:425-428 | the written balance exceeds the current one by exactly the field's amount, for the same user |
| UserManagement.TypedAmountAdded | project/src/pages/admin/UserManagement.tsx:413-427 | typing a whole number n adds exactly n credits |
| UserManagement.NegativeAmountSubtracts | project/src/pages/admin/UserManagement.tsx:409-427 | `min="0"` is only a hint: typing -n takes n credits away |
| UserManagement.NonNumericAddsNothing | project/src/pages/admin/UserManagement.tsx:413 | a cleared or non-numeric field leaves the balance as it was |
| UserManagement.LeadingIntegerOnly | project/src/pages/admin/UserManagement.tsx:413 | "2.5" adds 2 and "1e3" adds 1 |
| MessagesPage.Lower | project/src/pages/Messages.tsx:38 | lower-casing maps A-Z to a-z and leaves every other character alone |
| MessagesPage.LowerString | project/src/pages/Messages.tsx:38 | a string is lower-cased character by character, keeping its length |
| MessagesPage.LowerStringIdempotent | project/src/pages/Messages.tsx:38-39 | lower-casing twice is lower-casing once |
| MessagesPage.Includes | project/src/pages/Messages.tsx:38 | `includes` holds iff the needle occurs at some position of the haystack |
| MessagesPage.EmptyIncluded | project/src/pages/Messages.tsx:36-40 | the empty term occurs in every string |
| MessagesPage.FilterMessages | project/src/pages/Messages.tsx:36-40 | a message is kept iff it is in the input and the lower-cased term occurs in its lower-cased recipient or content; the result is never longer |
| MessagesPage.FilterIsSubsequence | project/src/pages/Messages.tsx:36-40 | the result is an order-preserving subsequence of the input |
| MessagesPage.EmptyTermKeepsAll | project/src/pages/Messages.tsx:36-40 | an empty search keeps every message, in order |
| MessagesPage.CaseInsensitive | project/src/pages/Messages.tsx:38-39 | two terms that lower-case alike give the same result |
| MessagesPage.LowerCasedTermSameResult | project/src/pages/Messages.tsx:38-39 | searching for the lower-cased term gives the same result as the term itself |
| MessagesPage.BadgeOf | project/src/pages/Messages.tsx:109-117 | success is green, failed red, pending yellow, and anything else blue, each iff |
| MessagesPage.LedgerStatusBadges | project/src/pages/Messages.tsx:109-117 | of the statuses the ledger holds, pending shows yellow, failed red, and sent and delivered blue; none shows green |

## Left out

- HTTP and CORS plumbing, and JSON and form encoding. A provider request is
  its URL, authorization and payload fields. Replies are input records, or
  maps of their top-level string fields. The 204 preflight's headers are not
  modelled.
- SendWhatsAppMessage.Form: `template_variables` is taken as the
  `JSON.stringify` text of an object, present or absent. The source tests
  its JavaScript truthiness (`if (template_variables)`); a falsy non-object
  value (`""`, `0`, `false`, `null`) is modelled as absent.
- Base64: the Basic header is `Basic(account_sid + ":" + auth_token)`, with
  the `btoa` step left symbolic.
- Supabase client calls, the auth session and Stripe's `constructEvent`
  are inputs. So are the Deno environment variables, of which only whether
  each is set and non-empty is modelled; supabase-js's further checks on the
  URL's form are left out.
- Clock: each handler reads it several times; the model takes one `now` for
  all of those reads. ISO timestamp formatting is left out. Times are
  milliseconds as integers.
- The stripe-webhook module-level client setup (secret key, webhook secret)
  is left out.
- The credentials column is a map of strings. A `null` credentials column
  would make the destructuring throw a TypeError; that is not modelled.
- `response.json()` failing on a reply that is not JSON is not a separate
  case. It counts as a thrown request, i.e. a `Thrown` reply.
- Floating point: get-twilio-credits' `parseFloat(balance)` is kept symbolic
  as `ParseFloat(text)`. MessageBird's amount is a real. Stripe's
  `amount_total / 100` is exact real division.
- SendSmsPage.Submit: the balance gate compares a real. A `NaN` balance,
  which passes `balance <= 0` as not insufficient in JavaScript, is not
  modelled.
- Logging, react-query caching, refetch and retry, toast styling, i18n and
  rendering are left out.
- project/src/pages/admin/Messages.tsx, project/src/pages/Billing.tsx,
  project/src/config/navigation.ts and project/src/contexts/SidebarContext.tsx
  hold no logic this model covers: role checks, static data and rendering.
- MessagesPage.Lower: only ASCII letters are case-folded. `toLowerCase` on
  other Unicode letters is not modelled.
- MessagesPage.FilterMessages: the page filters on a `content` field,
  while the ledger column the send path writes is `message`
  (project/src/pages/SendSMS.tsx:106). On such rows `message.content` is
  `undefined`, so a non-empty term that the row's recipient does not
  contain reaches `undefined.toLowerCase()` at
  project/src/pages/Messages.tsx:39 and throws a TypeError. The recipient
  test comes first under `||`, so an empty term or a recipient match does
  not throw. The model takes `content` as a present string and does not
  model that throw.
- The delete button's confirmation gate
  (project/src/pages/admin/UserManagement.tsx:520-523) is left out: it is
  one browser `confirm` dialog in front of the delete mutation, with no
  rule beyond that.
- Decimal.ParseInt: only the ASCII white space `parseInt` skips is modelled,
  and only base 10.
- StripeWebhook: `current_period_end` is an integer number of seconds. A
  missing one, which gives `NaN` and then "Invalid time value", is not
  modelled. A time outside the ECMAScript range does fail with "Invalid time
  value", before any write.
- UserManagement.AddUser: the two `users` lookups are given as booleans (row
  found or not). A lookup error is read as "no row", as the code does when
  it ignores the lookup's `error`.
- UserManagement.AddCredits: the result of the credits write is not
  modelled. That mutation has no error handler, so a failed write shows
  nothing on the page.
- UserManagement.AddCredits: the sum is exact integer addition. In
  JavaScript both the balance and the amount are doubles, so the written
  balance is exact only while the values stay within 2^53.
- UserManagement.TypedAmountAdded: "adds exactly n" holds in JavaScript only
  for n and the balance within 2^53; above that the double sum rounds.
- UserManagement.NegativeAmountSubtracts: as for TypedAmountAdded, the
  exact subtraction holds in JavaScript only within 2^53.
- Decimal.ParseIntReadsRenderedNumber: `parseInt` returns a double, so it
  reads back a rendered number exactly only up to 2^53; larger ones round.
- Decimal.ParseIntReadsRenderedNegative: as for the positive case, exact
  only down to -2^53.

## Findings

| source | as written | input that shows it | evidently intended | confidence | as-written member | corrected member |
|---|---|---|---|---|---|---|
| project/src/pages/SendSMS.tsx:80 | `enabled: !!selectedGatewayId && !!gateways?.find(...)?.provider === 'twilio'`; `!!` binds tighter than `===`, so a boolean is compared with the string `'twilio'` | any selection, e.g. a single gateway `{id "g1", provider "twilio"}` with "g1" selected: the flag is false, the credits query never runs, the page holds no credits, the Send button stays disabled and every submission is refused as "Insufficient gateway balance" | `!!selectedGatewayId && gateways?.find(...)?.provider === 'twilio'` | not executed | SendSmsPage.EnabledAsWrittenNeverHolds | SendSmsPage.QueryFnMatchesIntendedFlag |

`SendSmsPage.SubmitAlwaysBlockedAsWritten` carries the as-written flag through to the refused submission. `SendSmsPage.IntendedFlagAllowsSubmit` shows that the corrected flag lets a positive balance reach the insert.

=== FILE: common.dfy ===
/** Vocabulary shared by every part of the model: optional values and their
    JavaScript truthiness, the outcomes of the external calls the code makes
    (request-body parsing, HTTP fetches, table writes), the meaning of a chain
    of `if (...) throw` guards, and the filtered bulk update that an
    `.update(...).eq(...)` query performs on a table. */
module Common {

  datatype Option<T> = None | Some(value: T)

  /** Truthiness of an optional text value in JavaScript: a missing value
      (`undefined`/`null`) and the empty string are falsy, every other
      string is truthy. */
  predicate Truthy(s: Option<string>) {
    s.Some? && s.value != ""
  }

  /** A character outside the Basic Multilingual Plane, which UTF-16 stores
      as a surrogate pair of two code units. */
  predicate Astral(c: char) {
    c as int > 0xFFFF
  }

  /** `s.length` in JavaScript: the number of UTF-16 code units, so one for
      each character of the Basic Multilingual Plane and two for each
      character beyond it. */
  function JsLength(s: string): (n: nat)
    ensures |s| <= n <= 2 * |s|
    ensures n == 0 <==> |s| == 0
  {
    if |s| == 0 then 0 else (if Astral(s[0]) then 2 else 1) + JsLength(s[1..])
  }

  /** Text without astral characters has one code unit per character. */
  lemma {:induction false} JsLengthOfPlaneZero(s: string)
    requires forall i :: 0 <= i < |s| ==> !Astral(s[i])
    ensures JsLength(s) == |s|
  {
    if |s| > 0 {
      assert forall i :: 0 <= i < |s[1..]| ==> s[1..][i] == s[i + 1];
      JsLengthOfPlaneZero(s[1..]);
    }
  }

  /** Text made only of astral characters (emoji, say) has two code units
      per character. */
  lemma {:induction false} JsLengthOfAstral(s: string)
    requires forall i :: 0 <= i < |s| ==> Astral(s[i])
    ensures JsLength(s) == 2 * |s|
  {
    if |s| > 0 {
      assert forall i :: 0 <= i < |s[1..]| ==> s[1..][i] == s[i + 1];
      JsLengthOfAstral(s[1..]);
    }
  }

  /** `s || fallback` on an optional text value. */
  function Or(s: Option<string>, fallback: string): string {
    if Truthy(s) then s.value else fallback
  }

  /** A text value used where the code interpolates or forwards it; only
      ever applied to values already known to be truthy. */
  function TextOf(s: Option<string>): string {
    Or(s, "")
  }

  /** Reading a property of a JSON object whose values are strings. */
  function Field(obj: map<string, string>, key: string): Option<string> {
    if key in obj then Some(obj[key]) else None
  }

  /** `await req.json()`: the parsed body, or the message of the error the
      parse throws. */
  datatype Json<T> = Parsed(value: T) | Malformed(reason: string)

  /** `await fetch(...)` followed by `await response.json()`: either one of
      them threw (network failure, unparsable reply), or the server answered
      with a status code and a parsed reply. */
  datatype Fetch<T> = Thrown(reason: string) | Answered(status: nat, data: T)

  /** `response.ok` */
  predicate Ok2xx(status: nat) {
    200 <= status <= 299
  }

  /** The `{ error }` part of what a Supabase insert or update resolves to. */
  datatype WriteResult = Written | WriteError(message: string)

  /** One guard of a handler: the condition it demands and the message of
      the error it throws when the condition does not hold. */
  datatype Check = Check(passes: bool, error: string)

  /** The error of the first guard that fails, or None when all pass: the
      meaning of a sequence of `if (!cond) throw new Error(msg)` statements. */
  function FirstFailure(checks: seq<Check>): Option<string> {
    if |checks| == 0 then None
    else if !checks[0].passes then Some(checks[0].error)
    else FirstFailure(checks[1..])
  }

  /** The reported error belongs to a failing guard all of whose
      predecessors pass, and nothing is reported exactly when every guard
      passes. */
  lemma {:induction false} FirstFailureMeaning(checks: seq<Check>)
    ensures FirstFailure(checks).None? <==> forall i :: 0 <= i < |checks| ==> checks[i].passes
    ensures FirstFailure(checks).Some? ==>
      exists i :: 0 <= i < |checks| && !checks[i].passes && checks[i].error == FirstFailure(checks).value
        && forall j :: 0 <= j < i ==> checks[j].passes
  {
    if |checks| > 0 && checks[0].passes {
      FirstFailureMeaning(checks[1..]);
      var r := FirstFailure(checks[1..]);
      assert forall i :: 0 < i < |checks| ==> checks[i] == checks[1..][i - 1];
      if r.Some? {
        var i :| 0 <= i < |checks[1..]| && !checks[1..][i].passes && checks[1..][i].error == r.value
                 && forall j :: 0 <= j < i ==> checks[1..][j].passes;
        assert !checks[i + 1].passes && checks[i + 1].error == r.value;
        assert forall j :: 0 <= j < i + 1 ==> checks[j].passes by {
          forall j | 0 <= j < i + 1 ensures checks[j].passes {
            if j > 0 { assert checks[j] == checks[1..][j - 1]; }
          }
        }
      } else {
        assert forall i :: 0 <= i < |checks| ==> checks[i].passes by {
          forall i | 0 <= i < |checks| ensures checks[i].passes {
            if i > 0 { assert checks[i] == checks[1..][i - 1]; }
          }
        }
      }
    }
  }

  /** A guard chain whose guards all pass up to some failing one reports that
      one: the earlier guards decide, the later ones are never looked at. */
  lemma {:induction false} FirstFailureAt(checks: seq<Check>, i: nat)
    requires i < |checks| && !checks[i].passes
    requires forall j :: 0 <= j < i ==> checks[j].passes
    ensures FirstFailure(checks) == Some(checks[i].error)
  {
    if i > 0 {
      FirstFailureAt(checks[1..], i - 1);
    }
  }

  /** A filtered bulk update (`update(change).eq(...)...`): every row the
      filter selects is replaced by its changed copy, every other row is left
      as it was, and no row is added, removed or moved. */
  function UpdateWhere<T>(rows: seq<T>, selected: T -> bool, change: T -> T): (r: seq<T>)
    ensures |r| == |rows|
    ensures forall i :: 0 <= i < |rows| && selected(rows[i]) ==> r[i] == change(rows[i])
    ensures forall i :: 0 <= i < |rows| && !selected(rows[i]) ==> r[i] == rows[i]
  {
    if |rows| == 0 then []
    else [if selected(rows[0]) then change(rows[0]) else rows[0]]
         + UpdateWhere(rows[1..], selected, change)
  }
}

=== FILE: decimal.dfy ===
/** Decimal numerals as the code meets them: a status code rendered into an
    error message by a template literal (`${response.status}`), and the
    `parseInt(text) || 0` that turns the credit field of the user admin page
    into a number. */
module Decimal {
  import opened Common

  predicate IsDigit(c: char) {
    '0' <= c <= '9'
  }

  predicate AllDigits(s: string) {
    forall i :: 0 <= i < |s| ==> IsDigit(s[i])
  }

  function Digit(d: nat): (c: char)
    requires d < 10
    ensures IsDigit(c)
  {
    ('0' as int + d) as char
  }

  function DigitValue(c: char): nat
    requires IsDigit(c)
  {
    c as int - '0' as int
  }

  /** The numeral `${n}` renders for a non-negative integer: decimal digits,
      most significant first, without leading zeros. */
  function NatToString(n: nat): (s: string)
    ensures |s| >= 1 && AllDigits(s)
    ensures n >= 10 ==> s[0] != '0'
    decreases n
  {
    if n < 10 then [Digit(n)] else NatToString(n / 10) + [Digit(n % 10)]
  }

  /** The value of a string of decimal digits, most significant first. */
  function ValueOf(s: string): nat
    requires AllDigits(s)
  {
    if |s| == 0 then 0 else ValueOf(s[..|s| - 1]) * 10 + DigitValue(s[|s| - 1])
  }

  /** The white space `parseInt` skips before the number (ASCII part). */
  predicate IsSpace(c: char) {
    c == ' ' || c == '\t' || c == '\n' || c == '\r' || c as int == 11 || c as int == 12
  }

  function SkipSpace(s: string): (t: string)
    ensures |t| <= |s| && t == s[|s| - |t|..]
    ensures |t| > 0 ==> !IsSpace(t[0])
  {
    if |s| > 0 && IsSpace(s[0]) then SkipSpace(s[1..]) else s
  }

  /** Length of the longest prefix of `s` made of decimal digits. */
  function DigitRun(s: string): (n: nat)
    ensures n <= |s| && AllDigits(s[..n])
    ensures n < |s| ==> !IsDigit(s[n])
  {
    if |s| > 0 && IsDigit(s[0]) then
      var n := 1 + DigitRun(s[1..]);
      assert s[..n] == [s[0]] + s[1..][..n - 1];
      n
    else 0
  }

  /** The value of the digit run at the start of `u`, if there is one. */
  function Unsigned(u: string): Option<nat> {
    var n := DigitRun(u);
    if n == 0 then None else Some(ValueOf(u[..n]))
  }

  /** `parseInt(s)` for decimal input: skip leading white space, read an
      optional sign, then the longest run of digits; None stands for `NaN`,
      the result when no digit follows. */
  function ParseInt(s: string): Option<int> {
    Signed(SkipSpace(s))
  }

  /** An optional sign, then the digit run. */
  function Signed(t: string): Option<int> {
    if |t| > 0 && t[0] == '-' then
      match Unsigned(t[1..])
      case None => None
      case Some(v) => Some(-(v as int))
    else if |t| > 0 && t[0] == '+' then
      match Unsigned(t[1..])
      case None => None
      case Some(v) => Some(v as int)
    else
      match Unsigned(t)
      case None => None
      case Some(v) => Some(v as int)
  }

  /** `parseInt(s) || 0`: `NaN` (and `-0`) are falsy and become 0. */
  function ParseIntOrZero(s: string): int {
    match ParseInt(s)
    case None => 0
    case Some(v) => v
  }

  lemma {:induction false} ValueOfNatToString(n: nat)
    ensures ValueOf(NatToString(n)) == n
    decreases n
  {
    if n >= 10 {
      var s := NatToString(n / 10);
      var t := s + [Digit(n % 10)];
      assert t[..|t| - 1] == s;
      ValueOfNatToString(n / 10);
    }
  }

  lemma {:induction false} DigitRunOfDigits(s: string, rest: string)
    requires AllDigits(s)
    requires |rest| > 0 ==> !IsDigit(rest[0])
    ensures DigitRun(s + rest) == |s|
  {
    if |s| > 0 {
      assert (s + rest)[1..] == s[1..] + rest;
      DigitRunOfDigits(s[1..], rest);
    } else {
      assert s + rest == rest;
    }
  }

  /** A non-empty run of digits followed by a non-digit reads as its value. */
  lemma {:induction false} UnsignedOfDigits(s: string, rest: string)
    requires |s| > 0 && AllDigits(s)
    requires |rest| > 0 ==> !IsDigit(rest[0])
    ensures Unsigned(s + rest) == Some(ValueOf(s))
  {
    DigitRunOfDigits(s, rest);
    assert (s + rest)[..|s|] == s;
  }

  /** ... and the same with no sign at all. */
  lemma {:induction false} ParseIntOfDigits(s: string, rest: string)
    requires |s| > 0 && AllDigits(s)
    requires |rest| > 0 ==> !IsDigit(rest[0])
    ensures ParseInt(s + rest) == Some(ValueOf(s) as int)
  {
    UnsignedOfDigits(s, rest);
    var m := s + rest;
    assert m[0] == s[0] && IsDigit(m[0]);
    SkipSpaceStopsAt(m);
  }

  /** ... and after a minus sign. */
  lemma {:induction false} ParseIntOfNegatedDigits(s: string, rest: string, v: nat)
    requires |s| > 0 && AllDigits(s) && ValueOf(s) == v
    requires |rest| > 0 ==> !IsDigit(rest[0])
    ensures ParseInt("-" + s + rest) == Some(-(v as int))
  {
    UnsignedOfDigits(s, rest);
    var neg := "-" + s + rest;
    assert neg[0] == '-' && neg[1..] == s + rest;
    assert Signed(neg) == Some(-(v as int));
    SkipSpaceStopsAt(neg);
  }

  lemma SkipSpaceStopsAt(t: string)
    requires |t| > 0 && !IsSpace(t[0])
    ensures SkipSpace(t) == t
  {
  }

  /** `parseInt` reads back the number a template literal rendered, and it
      stops at the first character that is not a digit (so `"2.5"` and
      `"1e3"` read as 2 and 1). */
  lemma {:induction false} ParseIntReadsRenderedNumber(n: nat, rest: string)
    requires |rest| > 0 ==> !IsDigit(rest[0])
    ensures ParseInt(NatToString(n) + rest) == Some(n)
  {
    ParseIntOfDigits(NatToString(n), rest);
    ValueOfNatToString(n);
  }

  /** The same for a negative number: the sign is read, then the digits. */
  lemma {:induction false} ParseIntReadsRenderedNegative(n: nat, rest: string)
    requires |rest| > 0 ==> !IsDigit(rest[0])
    ensures ParseInt("-" + NatToString(n) + rest) == Some(-(n as int))
  {
    ValueOfNatToString(n);
    ParseIntOfNegatedDigits(NatToString(n), rest, n);
  }

  lemma {:induction false} NoDigitsAfterSkip(s: string)
    requires forall i :: 0 <= i < |s| ==> !IsDigit(s[i])
    ensures forall i :: 0 <= i < |SkipSpace(s)| ==> !IsDigit(SkipSpace(s)[i])
  {
    var t := SkipSpace(s);
    assert forall i :: 0 <= i < |t| ==> t[i] == s[|s| - |t| + i];
  }

  /** Input with no decimal digit at all (the empty field, text) reads as
      `NaN`, so `parseInt(...) || 0` turns it into 0. */
  lemma NoDigitsParsesAsZero(s: string)
    requires forall i :: 0 <= i < |s| ==> !IsDigit(s[i])
    ensures ParseInt(s).None?
    ensures ParseIntOrZero(s) == 0
  {
    NoDigitsAfterSkip(s);
    var t := SkipSpace(s);
    if |t| > 1 {
      assert t[1..][0] == t[1];
    }
  }
}

=== FILE: gateway.dfy ===
/** What the five gateway edge functions (send-twilio-sms,
    send-whatsapp-message, send-messagebird-sms, get-twilio-credits,
    get-messagebird-credits) have in common: the inbound request, the
    environment and gateway-row lookup they consult, the provider request
    they issue, the response they return, and the exact error texts of
    their guards.

    A handler is modelled as a pure function of its request and of the
    answers of the outside world (environment, `gateways` lookup, provider
    reply, ledger write result, clock). Its `Outcome` records the response
    together with what it would have read and sent: the gateway id it looked
    up, the provider requests it issued in order, and the `messages` table
    after its write. */
module Gateway {
  import opened Common
  import opened Ledger
  import Decimal

  /** `Deno.env.get('SUPABASE_URL')` and `Deno.env.get('SUPABASE_SERVICE_ROLE_KEY')`. */
  datatype Env = Env(supabaseUrl: Option<string>, serviceRoleKey: Option<string>)

  predicate Configured(env: Env) {
    Truthy(env.supabaseUrl) && Truthy(env.serviceRoleKey)
  }

  /** A `gateways` row as the handlers select it: `credentials, provider`.
      The credentials are a JSON object whose shape depends on the provider. */
  datatype GatewayRow = GatewayRow(provider: string, credentials: map<string, string>)

  /** What `.from('gateways').select(...).eq('id', id).single()` resolves
      to: an error, or a row that may be `null`. */
  datatype Lookup = LookupError | Found(row: Option<GatewayRow>)

  predicate HasRow(l: Lookup) {
    l.Found? && l.row.Some?
  }

  predicate HasProvider(l: Lookup, provider: string) {
    HasRow(l) && l.row.value.provider == provider
  }

  /** A credential field of the looked-up gateway (absent when there is none). */
  function Credential(l: Lookup, key: string): Option<string> {
    if HasRow(l) then Field(l.row.value.credentials, key) else None
  }

  function CredentialText(l: Lookup, key: string): string {
    TextOf(Credential(l, key))
  }

  /** The body of a send request: `{ gateway_id, recipient, message,
      template_sid, template_variables }`; each endpoint reads the fields it
      needs. `templateVariables` is the `JSON.stringify` text of the given
      object. */
  datatype SendParams = SendParams(
    gatewayId: Option<string>,
    recipient: Option<string>,
    message: Option<string>,
    templateSid: Option<string>,
    templateVariables: Option<string>)

  /** A POST to a send endpoint. */
  datatype SendRequest = SendRequest(httpMethod: string, authorization: Option<string>, body: Json<SendParams>)

  /** A GET to a balance endpoint, with its `gateway_id` query parameter. */
  datatype BalanceRequest = BalanceRequest(httpMethod: string, authorization: Option<string>, gatewayId: Option<string>)

  /** The destructured body; a body that failed to parse never gets this far. */
  function ParamsOf(body: Json<SendParams>): SendParams {
    match body
    case Parsed(p) => p
    case Malformed(_) => SendParams(None, None, None, None, None)
  }

  function ParseError(body: Json<SendParams>): string {
    match body
    case Parsed(_) => ""
    case Malformed(reason) => reason
  }

  /** `Authorization` header of a provider request. `Basic(userPass)` is
      `"Basic " + btoa(userPass)`; the base64 step is not modelled. */
  datatype Authorization = Basic(userPass: string) | AccessKey(key: string)

  /** `"AccessKey " + key`, the header MessageBird expects. */
  function AccessKeyHeader(key: string): string {
    "AccessKey " + key
  }

  /** MessageBird's JSON message body. */
  datatype MessageBirdMessage = MessageBirdMessage(originator: string, recipients: seq<string>, body: string)

  /** A request to a provider's HTTP API. */
  datatype ProviderRequest =
    | FormPost(url: string, auth: Authorization, form: seq<(string, string)>)
    | JsonPost(url: string, auth: Authorization, message: MessageBirdMessage)
    | Get(url: string, auth: Authorization)

  const TwilioApi := "https://api.twilio.com/2010-04-01/Accounts/"

  function TwilioMessagesUrl(accountSid: string): string {
    TwilioApi + accountSid + "/Messages.json"
  }

  function TwilioBalanceUrl(accountSid: string): string {
    TwilioApi + accountSid + "/Balance.json"
  }

  function TwilioAccountUrl(accountSid: string): string {
    TwilioApi + accountSid + ".json"
  }

  const MessageBirdMessagesUrl := "https://rest.messagebird.com/messages"
  const MessageBirdBalanceUrl := "https://rest.messagebird.com/balance"

  /** Basic credentials `account_sid:auth_token`. */
  function TwilioAuth(accountSid: string, authToken: string): Authorization {
    Basic(accountSid + ":" + authToken)
  }

  /** `error.errors?.[0]?.description` of a MessageBird error reply, whose
      `errors` array is given by the descriptions of its entries. */
  function FirstDescription(errors: seq<Option<string>>): Option<string> {
    if |errors| == 0 then None else errors[0]
  }

  /** 204 to a preflight, 200 with a body, or 400 `{ error }`. */
  datatype Response<B> = NoContent | Ok(body: B) | BadRequest(error: string)

  function StatusCode<B>(r: Response<B>): nat {
    match r
    case NoContent => 204
    case Ok(_) => 200
    case BadRequest(_) => 400
  }

  const Unexpected := "An unexpected error occurred"

  /** The outer `catch`: `{ error: error.message || 'An unexpected error occurred' }`. */
  function Reject<B>(message: string): (r: Response<B>)
    ensures r.BadRequest? && r.error != ""
    ensures message != "" ==> r.error == message
    ensures message == "" ==> r.error == Unexpected
  {
    BadRequest(if message == "" then Unexpected else message)
  }

  datatype Outcome<B> = Outcome(
    response: Response<B>,
    lookup: Option<string>,
    calls: seq<ProviderRequest>,
    ledger: seq<MessageRow>)

  // Guard error texts, shared by the endpoints.
  const MissingAuth := "Missing authorization header"
  const MissingParams := "Missing required parameters"
  const MissingGatewayId := "Gateway ID is required"
  const MissingConfig := "Missing Supabase configuration"
  const LookupDenied := "Gateway not found or access denied"
  const NotFound := "Gateway not found"
  const WrongProvider := "Invalid gateway provider"
  const BadCredentials := "Invalid gateway credentials"

  /** `"Twilio API error: " + status`, the fallback when a Twilio error reply has no message. */
  function TwilioStatusError(status: nat): string {
    "Twilio API error: " + Decimal.NatToString(status)
  }
}

=== FILE: get_messagebird_credits.dfy ===
/** The get-messagebird-credits edge function: validate, ask MessageBird for
    the account balance, and return it in the normalised `{ balance,
    currency }` shape. */
module GetMessageBirdCredits {
  import opened Common
  import opened Ledger
  import opened Gateway

  /** A MessageBird balance reply: `{ amount, type }` when it answers 2xx,
      an `errors` array otherwise. `amount` is a JSON number. */
  datatype BalanceReply = BalanceReply(errors: seq<Option<string>>, amount: Option<real>, kind: Option<string>)

  /** The normalised balance `{ balance, currency }`. */
  datatype Balance = Balance(balance: Option<real>, currency: Option<string>)

  const FetchFailed := "Failed to fetch balance"

  /** The handler's guards, in the order it evaluates them. The originator
      is not needed to read the balance. */
  function Guards(req: BalanceRequest, env: Env, gateway: Lookup): seq<Check> {
    [ Check(Truthy(req.authorization), MissingAuth),
      Check(Truthy(req.gatewayId), MissingGatewayId),
      Check(Configured(env), MissingConfig),
      Check(!gateway.LookupError?, LookupDenied),
      Check(HasProvider(gateway, "messagebird"), WrongProvider),
      Check(Truthy(Credential(gateway, "api_key")), BadCredentials) ]
  }

  function Fail(message: string, lookup: Option<string>, calls: seq<ProviderRequest>,
                ledger: seq<MessageRow>): Outcome<Balance> {
    Outcome(Reject(message), lookup, calls, ledger)
  }

  /** `{ amount, type }` becomes `{ balance: amount, currency: type }`. */
  function Normalise(data: BalanceReply): Balance {
    Balance(data.amount, data.kind)
  }

  /** The request handler; the `messages` table is passed through untouched. */
  function Handle(req: BalanceRequest, env: Env, gateway: Lookup, reply: Fetch<BalanceReply>,
                  ledger: seq<MessageRow>): (out: Outcome<Balance>)
    ensures req.httpMethod == "OPTIONS" <==> out.response.NoContent?
    ensures req.httpMethod == "OPTIONS" ==> out.lookup.None? && out.calls == []
    ensures out.ledger == ledger
    ensures out.lookup.Some? ==>
      Truthy(req.authorization) && Configured(env) && Truthy(req.gatewayId) && out.lookup == req.gatewayId
    ensures out.calls != [] ==>
      && out.lookup.Some? && HasProvider(gateway, "messagebird")
      && Truthy(Credential(gateway, "api_key"))
      && out.calls == [Get(MessageBirdBalanceUrl, AccessKey(gateway.row.value.credentials["api_key"]))]
    // The balance reported is MessageBird's amount, in its currency.
    ensures out.response.Ok? ==>
      && out.calls != [] && reply.Answered? && Ok2xx(reply.status)
      && out.response.body.balance == reply.data.amount
      && out.response.body.currency == reply.data.kind
    // Once MessageBird is called, a 2xx reply returns the balance and a
    // thrown request is reported by its message.
    ensures out.calls != [] && reply.Answered? && Ok2xx(reply.status) ==>
      out.response == Ok(Balance(reply.data.amount, reply.data.kind))
    ensures out.calls != [] && reply.Thrown? ==> out.response == Reject(reply.reason)
    ensures out.response.BadRequest? ==> out.response.error != ""
  {
    if req.httpMethod == "OPTIONS" then Outcome(NoContent, None, [], ledger)
    else if !Truthy(req.authorization) then Fail(MissingAuth, None, [], ledger)
    else if !Truthy(req.gatewayId) then Fail(MissingGatewayId, None, [], ledger)
    else if !Configured(env) then Fail(MissingConfig, None, [], ledger)
    else
      var looked := Some(req.gatewayId.value);
      if gateway.LookupError? then Fail(LookupDenied, looked, [], ledger)
      else if gateway.row.None? || gateway.row.value.provider != "messagebird" then
        Fail(WrongProvider, looked, [], ledger)
      else
        var key := Field(gateway.row.value.credentials, "api_key");
        if !Truthy(key) then Fail(BadCredentials, looked, [], ledger)
        else
          var call := Get(MessageBirdBalanceUrl, AccessKey(key.value));
          match reply
          case Thrown(reason) => Fail(reason, looked, [call], ledger)
          case Answered(status, data) =>
            if !Ok2xx(status) then Fail(Or(FirstDescription(data.errors), FetchFailed), looked, [call], ledger)
            else Outcome(Ok(Normalise(data)), looked, [call], ledger)
  }

  /** Past the preflight check, the response carries the error of the first
      failing guard (auth header, gateway id, configuration, lookup, provider,
      API key), and then MessageBird is not called. */
  lemma GuardOrder(req: BalanceRequest, env: Env, gateway: Lookup, reply: Fetch<BalanceReply>,
                   ledger: seq<MessageRow>)
    requires req.httpMethod != "OPTIONS"
    ensures var out := Handle(req, env, gateway, reply, ledger);
      match FirstFailure(Guards(req, env, gateway))
      case Some(e) => out.response == Reject(e) && out.calls == []
      case None => |out.calls| == 1
  {
    var checks := Guards(req, env, gateway);
    if !checks[0].passes {
      FirstFailureAt(checks, 0);
    } else if !checks[1].passes {
      FirstFailureAt(checks, 1);
    } else if !checks[2].passes {
      FirstFailureAt(checks, 2);
    } else {
      LateGuards(req, env, gateway, reply, ledger);
    }
  }

  lemma LateGuards(req: BalanceRequest, env: Env, gateway: Lookup, reply: Fetch<BalanceReply>,
                   ledger: seq<MessageRow>)
    requires req.httpMethod != "OPTIONS"
    requires var checks := Guards(req, env, gateway);
      checks[0].passes && checks[1].passes && checks[2].passes
    ensures var out := Handle(req, env, gateway, reply, ledger);
      match FirstFailure(Guards(req, env, gateway))
      case Some(e) => out.response == Reject(e) && out.calls == []
      case None => |out.calls| == 1
  {
    var checks := Guards(req, env, gateway);
    if !checks[3].passes {
      FirstFailureAt(checks, 3);
    } else if !checks[4].passes {
      FirstFailureAt(checks, 4);
    } else if !checks[5].passes {
      FirstFailureAt(checks, 5);
    } else {
      FirstFailureMeaning(checks);
    }
  }

  /** A gateway without an originator still gets its balance read. */
  lemma OriginatorNotRequired(req: BalanceRequest, env: Env, key: string, reply: Fetch<BalanceReply>,
                              ledger: seq<MessageRow>)
    requires req.httpMethod != "OPTIONS" && Truthy(req.authorization) && Truthy(req.gatewayId)
    requires Configured(env) && key != ""
    ensures Handle(req, env, Found(Some(GatewayRow("messagebird", map["api_key" := key]))), reply, ledger).calls
            == [Get(MessageBirdBalanceUrl, AccessKey(key))]
  {
  }

  /** Once every guard passes, the reply decides: a thrown request is
      reported by its message, a non-2xx reply by its first error's
      description or "Failed to fetch balance", and a 2xx reply returns the
      normalised balance. */
  lemma ProviderErrors(req: BalanceRequest, env: Env, gateway: Lookup, reply: Fetch<BalanceReply>,
                       ledger: seq<MessageRow>)
    requires req.httpMethod != "OPTIONS" && FirstFailure(Guards(req, env, gateway)).None?
    ensures var out := Handle(req, env, gateway, reply, ledger);
      && (reply.Thrown? ==> out.response == Reject(reply.reason))
      && (reply.Answered? && !Ok2xx(reply.status) ==>
            out.response == BadRequest(if |reply.data.errors| > 0 && Truthy(reply.data.errors[0])
                                       then reply.data.errors[0].value else FetchFailed))
      && (reply.Answered? && Ok2xx(reply.status) <==> out.response.Ok?)
      && (reply.Answered? && Ok2xx(reply.status) ==> out.response == Ok(Balance(reply.data.amount, reply.data.kind)))
  {
    var checks := Guards(req, env, gateway);
    FirstFailureMeaning(checks);
    assert checks[0].passes && checks[1].passes && checks[2].passes;
    assert checks[3].passes && checks[4].passes && checks[5].passes;
  }

  /** The scenario of a MessageBird reply `{ amount: 12.5, type: "EUR" }`. */
  lemma NormaliseExample()
    ensures Normalise(BalanceReply([], Some(12.5), Some("EUR"))) == Balance(Some(12.5), Some("EUR"))
  {
  }
}

=== FILE: get_twilio_credits.dfy ===
/** The get-twilio-credits edge function: validate, then read the account's
    balance and, only if that succeeded, its account details, and merge the
    two into one result. */
module GetTwilioCredits {
  import opened Common
  import opened Ledger
  import opened Gateway

  type TwilioReply = map<string, string>

  /** `parseFloat(text)`, kept symbolic: floating-point parsing is not part
      of the model, only which text it is applied to. */
  datatype Number = ParseFloat(text: Option<string>)

  /** The success body `{ balance, currency, type, status, created_at }`. */
  datatype AccountBalance = AccountBalance(
    balance: Number,
    currency: Option<string>,
    accountType: Option<string>,
    status: Option<string>,
    createdAt: Option<string>)

  const Prefix := "Failed to fetch Twilio balance: "

  /** The handler's guards, in the order it evaluates them. Reading the
      balance needs the account sid and token but not the sender number. */
  function Guards(req: BalanceRequest, env: Env, gateway: Lookup): seq<Check> {
    [ Check(Truthy(req.authorization), MissingAuth),
      Check(Truthy(req.gatewayId), MissingGatewayId),
      Check(Configured(env), MissingConfig),
      Check(!gateway.LookupError?, LookupDenied),
      Check(HasRow(gateway), NotFound),
      Check(HasProvider(gateway, "twilio"), WrongProvider),
      Check(Truthy(Credential(gateway, "account_sid")) && Truthy(Credential(gateway, "auth_token")),
            BadCredentials) ]
  }

  function Fail(message: string, lookup: Option<string>, calls: seq<ProviderRequest>,
                ledger: seq<MessageRow>): Outcome<AccountBalance> {
    Outcome(Reject(message), lookup, calls, ledger)
  }

  /** The error a Twilio reply that is not 2xx is reported with. */
  function ReplyError(status: nat, data: TwilioReply): string {
    Or(Field(data, "message"), TwilioStatusError(status))
  }

  /** The request handler. `balanceReply` answers the Balance request and
      `accountReply` the account-details request. */
  function Handle(req: BalanceRequest, env: Env, gateway: Lookup,
                  balanceReply: Fetch<TwilioReply>, accountReply: Fetch<TwilioReply>,
                  ledger: seq<MessageRow>): (out: Outcome<AccountBalance>)
    ensures req.httpMethod == "OPTIONS" <==> out.response.NoContent?
    ensures req.httpMethod == "OPTIONS" ==> out.lookup.None? && out.calls == []
    ensures out.ledger == ledger
    ensures out.lookup.Some? ==>
      Truthy(req.authorization) && Configured(env) && Truthy(req.gatewayId) && out.lookup == req.gatewayId
    // Twilio is only asked once the gateway is a Twilio one with a sid and
    // a token; the Balance request comes first, and the account request
    // follows only when the Balance request succeeded.
    ensures out.calls != [] ==>
      && out.lookup.Some? && HasProvider(gateway, "twilio")
      && Truthy(Credential(gateway, "account_sid")) && Truthy(Credential(gateway, "auth_token"))
      && var creds := gateway.row.value.credentials;
         var sid := creds["account_sid"];
         var auth := Basic(sid + ":" + creds["auth_token"]);
         && 1 <= |out.calls| <= 2
         && out.calls[0] == Get(TwilioBalanceUrl(sid), auth)
         && (|out.calls| == 2 <==> balanceReply.Answered? && Ok2xx(balanceReply.status))
         && (|out.calls| == 2 ==> out.calls[1] == Get(TwilioAccountUrl(sid), auth))
    // Success needs both replies 2xx; the result takes the balance and
    // currency from the first and type, status and creation date from the
    // second.
    ensures out.response.Ok? ==>
      && |out.calls| == 2
      && balanceReply.Answered? && Ok2xx(balanceReply.status)
      && accountReply.Answered? && Ok2xx(accountReply.status)
      && out.response.body == AccountBalance(
           ParseFloat(Field(balanceReply.data, "balance")), Field(balanceReply.data, "currency"),
           Field(accountReply.data, "type"), Field(accountReply.data, "status"),
           Field(accountReply.data, "date_created"))
    ensures out.response.BadRequest? ==> out.response.error != ""
  {
    if req.httpMethod == "OPTIONS" then Outcome(NoContent, None, [], ledger)
    else if !Truthy(req.authorization) then Fail(MissingAuth, None, [], ledger)
    else if !Truthy(req.gatewayId) then Fail(MissingGatewayId, None, [], ledger)
    else if !Configured(env) then Fail(MissingConfig, None, [], ledger)
    else
      var looked := Some(req.gatewayId.value);
      if gateway.LookupError? then Fail(LookupDenied, looked, [], ledger)
      else if gateway.row.None? then Fail(NotFound, looked, [], ledger)
      else if gateway.row.value.provider != "twilio" then Fail(WrongProvider, looked, [], ledger)
      else
        var creds := gateway.row.value.credentials;
        var sid := Field(creds, "account_sid");
        var token := Field(creds, "auth_token");
        if !Truthy(sid) || !Truthy(token) then Fail(BadCredentials, looked, [], ledger)
        else
          var auth := Basic(sid.value + ":" + token.value);
          var first := Get(TwilioBalanceUrl(sid.value), auth);
          match balanceReply
          case Thrown(reason) => Fail(Prefix + reason, looked, [first], ledger)
          case Answered(status, balance) =>
            if !Ok2xx(status) then Fail(Prefix + ReplyError(status, balance), looked, [first], ledger)
            else
              var second := Get(TwilioAccountUrl(sid.value), auth);
              match accountReply
              case Thrown(reason) => Fail(Prefix + reason, looked, [first, second], ledger)
              case Answered(status2, account) =>
                if !Ok2xx(status2) then
                  Fail(Prefix + ReplyError(status2, account), looked, [first, second], ledger)
                else
                  var result := AccountBalance(
                    ParseFloat(Field(balance, "balance")), Field(balance, "currency"),
                    Field(account, "type"), Field(account, "status"), Field(account, "date_created"));
                  Outcome(Ok(result), looked, [first, second], ledger)
  }

  /** Past the preflight check, the response carries the error of the first
      failing guard (auth header, gateway id, configuration, lookup error,
      missing row, provider, credentials), and then Twilio is not called. */
  lemma GuardOrder(req: BalanceRequest, env: Env, gateway: Lookup,
                   balanceReply: Fetch<TwilioReply>, accountReply: Fetch<TwilioReply>,
                   ledger: seq<MessageRow>)
    requires req.httpMethod != "OPTIONS"
    ensures var out := Handle(req, env, gateway, balanceReply, accountReply, ledger);
      match FirstFailure(Guards(req, env, gateway))
      case Some(e) => out.response == Reject(e) && out.calls == []
      case None => out.calls != []
  {
    var checks := Guards(req, env, gateway);
    if !checks[0].passes {
      FirstFailureAt(checks, 0);
    } else if !checks[1].passes {
      FirstFailureAt(checks, 1);
    } else if !checks[2].passes {
      FirstFailureAt(checks, 2);
    } else {
      LateGuards(req, env, gateway, balanceReply, accountReply, ledger);
    }
  }

  lemma LateGuards(req: BalanceRequest, env: Env, gateway: Lookup,
                   balanceReply: Fetch<TwilioReply>, accountReply: Fetch<TwilioReply>,
                   ledger: seq<MessageRow>)
    requires req.httpMethod != "OPTIONS"
    requires var checks := Guards(req, env, gateway);
      checks[0].passes && checks[1].passes && checks[2].passes
    ensures var out := Handle(req, env, gateway, balanceReply, accountReply, ledger);
      match FirstFailure(Guards(req, env, gateway))
      case Some(e) => out.response == Reject(e) && out.calls == []
      case None => out.calls != []
  {
    var checks := Guards(req, env, gateway);
    if !checks[3].passes {
      FirstFailureAt(checks, 3);
    } else if !checks[4].passes {
      FirstFailureAt(checks, 4);
    } else {
      FinalGuards(req, env, gateway, balanceReply, accountReply, ledger);
    }
  }

  lemma FinalGuards(req: BalanceRequest, env: Env, gateway: Lookup,
                    balanceReply: Fetch<TwilioReply>, accountReply: Fetch<TwilioReply>,
                    ledger: seq<MessageRow>)
    requires req.httpMethod != "OPTIONS"
    requires var checks := Guards(req, env, gateway);
      checks[0].passes && checks[1].passes && checks[2].passes && checks[3].passes && checks[4].passes
    ensures var out := Handle(req, env, gateway, balanceReply, accountReply, ledger);
      match FirstFailure(Guards(req, env, gateway))
      case Some(e) => out.response == Reject(e) && out.calls == []
      case None => out.calls != []
  {
    var checks := Guards(req, env, gateway);
    if !checks[5].passes {
      FirstFailureAt(checks, 5);
    } else if !checks[6].passes {
      FirstFailureAt(checks, 6);
    } else {
      FirstFailureMeaning(checks);
    }
  }

  /** No partial result: when either request fails the whole call fails
      with "Failed to fetch Twilio balance: " and the reason, Twilio's
      message, or "Twilio API error: <status>" of the failing request. */
  lemma EitherFailureFails(req: BalanceRequest, env: Env, gateway: Lookup,
                           balanceReply: Fetch<TwilioReply>, accountReply: Fetch<TwilioReply>,
                           ledger: seq<MessageRow>)
    requires req.httpMethod != "OPTIONS" && FirstFailure(Guards(req, env, gateway)).None?
    ensures var out := Handle(req, env, gateway, balanceReply, accountReply, ledger);
      && (balanceReply.Thrown? ==> out.response == BadRequest(Prefix + balanceReply.reason))
      && (balanceReply.Answered? && !Ok2xx(balanceReply.status) ==>
            out.response == BadRequest(Prefix + ReplyError(balanceReply.status, balanceReply.data)))
      && (balanceReply.Answered? && Ok2xx(balanceReply.status) ==>
            && (accountReply.Thrown? ==> out.response == BadRequest(Prefix + accountReply.reason))
            && (accountReply.Answered? && !Ok2xx(accountReply.status) ==>
                  out.response == BadRequest(Prefix + ReplyError(accountReply.status, accountReply.data))))
      && (out.response.Ok? <==> balanceReply.Answered? && Ok2xx(balanceReply.status)
                                && accountReply.Answered? && Ok2xx(accountReply.status))
  {
    var checks := Guards(req, env, gateway);
    FirstFailureMeaning(checks);
    assert checks[0].passes && checks[1].passes && checks[2].passes && checks[3].passes;
    assert checks[4].passes && checks[5].passes && checks[6].passes;
  }

  /** A gateway with only a sid and a token (no sender number) still gets
      its balance read. */
  lemma SenderNumberNotRequired(req: BalanceRequest, env: Env, sid: string, token: string,
                                balanceReply: Fetch<TwilioReply>, accountReply: Fetch<TwilioReply>,
                                ledger: seq<MessageRow>)
    requires req.httpMethod != "OPTIONS" && Truthy(req.authorization) && Truthy(req.gatewayId)
    requires Configured(env) && sid != "" && token != ""
    ensures var gateway := Found(Some(GatewayRow("twilio", map["account_sid" := sid, "auth_token" := token])));
      Handle(req, env, gateway, balanceReply, accountReply, ledger).calls[0]
        == Get(TwilioBalanceUrl(sid), Basic(sid + ":" + token))
  {
  }

  /** The scenario of the balance/account pair `{ balance: "3.40", currency:
      "USD" }` and `{ type: "Trial", status: "active", date_created:
      "2023-01-01" }`. */
  lemma MergeExample(req: BalanceRequest, env: Env, gateway: Lookup, ledger: seq<MessageRow>)
    requires req.httpMethod != "OPTIONS" && FirstFailure(Guards(req, env, gateway)).None?
    ensures var balance := map["balance" := "3.40", "currency" := "USD"];
      var account := map["type" := "Trial", "status" := "active", "date_created" := "2023-01-01"];
      Handle(req, env, gateway, Answered(200, balance), Answered(200, account), ledger).response
        == Ok(AccountBalance(ParseFloat(Some("3.40")), Some("USD"), Some("Trial"), Some("active"), Some("2023-01-01")))
  {
    var checks := Guards(req, env, gateway);
    FirstFailureMeaning(checks);
    assert checks[0].passes && checks[1].passes && checks[2].passes && checks[3].passes;
    assert checks[4].passes && checks[5].passes && checks[6].passes;
  }
}

=== FILE: ledger.dfy ===
/** The `messages` table as the send endpoints see it, and the one write they
    make to it: after the provider accepted a message, every row their
    equality filter picks out that is still `pending` becomes `sent`, with
    `sent_at` set to the current time. */
module Ledger {
  import opened Common

  datatype MessageStatus = Pending | Sent | Failed | Delivered

  /** The text the `status` column holds for each status. */
  function StatusText(s: MessageStatus): string {
    match s
    case Pending => "pending"
    case Sent => "sent"
    case Failed => "failed"
    case Delivered => "delivered"
  }

  datatype MessageRow = MessageRow(
    id: string,
    gatewayId: string,
    recipient: string,
    message: Option<string>,
    status: MessageStatus,
    scheduledFor: Option<string>,
    sentAt: Option<nat>)

  /** The `.eq(...)` filter a send endpoint puts on its ledger update. The
      SMS endpoints also match the message text; the WhatsApp endpoint does
      not, which is `message == None`. */
  datatype Filter = Filter(gatewayId: string, recipient: string, message: Option<string>)

  /** Whether the filter (plus the implicit `.eq('status', 'pending')`)
      picks out a row. A row whose text is `null` never equals a given text. */
  predicate Selects(f: Filter, row: MessageRow) {
    && row.gatewayId == f.gatewayId
    && row.recipient == f.recipient
    && (f.message.Some? ==> row.message == f.message)
    && row.status == Pending
  }

  /** `update({ status: 'sent', sent_at: now })` under the filter `f`. */
  function MarkSent(rows: seq<MessageRow>, f: Filter, now: nat): (r: seq<MessageRow>)
    ensures |r| == |rows|
    ensures forall i :: 0 <= i < |rows| && Selects(f, rows[i]) ==>
      r[i] == rows[i].(status := Sent, sentAt := Some(now))
    ensures forall i :: 0 <= i < |rows| && !Selects(f, rows[i]) ==> r[i] == rows[i]
  {
    UpdateWhere(rows, (row: MessageRow) => Selects(f, row), (row: MessageRow) => row.(status := Sent, sentAt := Some(now)))
  }

  /** The best-effort ledger write: when the store reports an error the
      table is left as it was. */
  function Reconcile(rows: seq<MessageRow>, f: Filter, w: WriteResult, now: nat): seq<MessageRow> {
    if w.Written? then MarkSent(rows, f, now) else rows
  }

  /** After the update no row is left that the same filter would pick out,
      so running the update again changes nothing, whatever the clock says. */
  lemma MarkSentIdempotent(rows: seq<MessageRow>, f: Filter, now: nat, later: nat)
    ensures forall i :: 0 <= i < |MarkSent(rows, f, now)| ==> !Selects(f, MarkSent(rows, f, now)[i])
    ensures MarkSent(MarkSent(rows, f, now), f, later) == MarkSent(rows, f, now)
  {
    var once := MarkSent(rows, f, now);
    var twice := MarkSent(once, f, later);
    assert forall i :: 0 <= i < |once| ==> !Selects(f, once[i]);
    assert |twice| == |once|;
    assert forall i :: 0 <= i < |once| ==> twice[i] == once[i];
  }

  /** Rows keep their identity, recipient, gateway and text; only status
      and `sent_at` can change, and only from `pending` to `sent`. */
  lemma MarkSentOnlyAdvancesPending(rows: seq<MessageRow>, f: Filter, now: nat)
    ensures forall i :: 0 <= i < |rows| ==>
      var r := MarkSent(rows, f, now)[i];
      && r.id == rows[i].id && r.gatewayId == rows[i].gatewayId
      && r.recipient == rows[i].recipient && r.message == rows[i].message
      && r.scheduledFor == rows[i].scheduledFor
      && (r.status != rows[i].status ==> rows[i].status == Pending && r.status == Sent)
  {
  }

  /** A filter without the text condition picks out every row the one with
      it does, and, on a row with different text, more. */
  lemma TextlessFilterIsWider(g: string, to: string, text: string, row: MessageRow)
    ensures Selects(Filter(g, to, Some(text)), row) ==> Selects(Filter(g, to, None), row)
    ensures row.gatewayId == g && row.recipient == to && row.status == Pending && row.message != Some(text)
            ==> Selects(Filter(g, to, None), row) && !Selects(Filter(g, to, Some(text)), row)
  {
  }
}

=== FILE: messages_page.dfy ===
/** The Messages page: the case-insensitive search over recipient and
    content, and the colour of each status badge. */
module MessagesPage {
  import Ledger

  /** A row as the page reads it. */
  datatype MessageItem = MessageItem(id: string, recipient: string, content: string, status: string)

  datatype Badge = Green | Red | Yellow | Blue

  // ------------------------------------------------------- case folding

  predicate IsUpper(c: char) {
    'A' <= c <= 'Z'
  }

  /** `toLowerCase` on one character, for the ASCII letters. */
  function Lower(c: char): (r: char)
    ensures !IsUpper(r)
    ensures IsUpper(c) ==> r as int == c as int + 32
    ensures !IsUpper(c) ==> r == c
  {
    if IsUpper(c) then (c as int + 32) as char else c
  }

  function LowerString(s: string): (r: string)
    ensures |r| == |s|
    ensures forall i :: 0 <= i < |s| ==> r[i] == Lower(s[i])
  {
    seq(|s|, i requires 0 <= i < |s| => Lower(s[i]))
  }

  /** Lower-casing twice is lower-casing once. */
  lemma LowerStringIdempotent(s: string)
    ensures LowerString(LowerString(s)) == LowerString(s)
  {
  }

  // ------------------------------------------------------------ includes

  /** `needle` occurs in `hay` starting at position `k`. */
  predicate OccursAt(hay: string, needle: string, k: int) {
    0 <= k && k + |needle| <= |hay| && hay[k..k + |needle|] == needle
  }

  /** `hay.includes(needle)`. */
  function Includes(hay: string, needle: string): (r: bool)
    ensures r <==> exists k :: OccursAt(hay, needle, k)
    decreases |hay|
  {
    if |needle| > |hay| then
      assert forall k :: !OccursAt(hay, needle, k);
      false
    else if hay[..|needle|] == needle then
      assert OccursAt(hay, needle, 0);
      true
    else
      var rest := Includes(hay[1..], needle);
      assert rest <==> exists k :: OccursAt(hay, needle, k) by {
        forall k | OccursAt(hay[1..], needle, k) ensures OccursAt(hay, needle, k + 1) {
          ShiftedSlice(hay, k + 1, |needle|);
        }
        forall k | OccursAt(hay, needle, k) ensures OccursAt(hay[1..], needle, k - 1) {
          assert k != 0;
          ShiftedSlice(hay, k, |needle|);
        }
      }
      rest
  }

  /** A slice of `hay` away from its head is the same slice of its tail, shifted. */
  lemma ShiftedSlice(hay: string, k: int, n: nat)
    requires 1 <= k && k + n <= |hay|
    ensures hay[k..k + n] == hay[1..][k - 1..k - 1 + n]
  {
    var here, there := hay[k..k + n], hay[1..][k - 1..k - 1 + n];
    assert forall i :: 0 <= i < n ==> here[i] == there[i];
  }

  /** The empty string occurs in every string. */
  lemma EmptyIncluded(hay: string)
    ensures Includes(hay, "")
  {
    assert OccursAt(hay, "", 0);
  }

  // ------------------------------------------------------------- filter

  /** The search predicate: the lower-cased term occurs in the lower-cased
      recipient or in the lower-cased content. */
  predicate Matches(m: MessageItem, term: string) {
    Includes(LowerString(m.recipient), LowerString(term))
    || Includes(LowerString(m.content), LowerString(term))
  }

  /** `xs` is `ys` with some elements left out, order kept. */
  predicate Subsequence<T(==)>(xs: seq<T>, ys: seq<T>)
    decreases |ys|
  {
    if xs == [] then true
    else if ys == [] then false
    else if xs[0] == ys[0] then Subsequence(xs[1..], ys[1..])
    else Subsequence(xs, ys[1..])
  }

  /** `filteredMessages`. */
  function FilterMessages(ms: seq<MessageItem>, term: string): (r: seq<MessageItem>)
    ensures |r| <= |ms|
    ensures forall m :: m in r <==> m in ms && Matches(m, term)
  {
    if ms == [] then []
    else
      var rest := FilterMessages(ms[1..], term);
      assert forall m :: m in ms <==> m == ms[0] || m in ms[1..];
      if Matches(ms[0], term) then [ms[0]] + rest else rest
  }

  /** The result keeps the input's order. */
  lemma {:induction false} FilterIsSubsequence(ms: seq<MessageItem>, term: string)
    ensures Subsequence(FilterMessages(ms, term), ms)
  {
    if ms != [] {
      FilterIsSubsequence(ms[1..], term);
      var rest := FilterMessages(ms[1..], term);
      if !Matches(ms[0], term) {
        SkipHead(rest, ms);
      }
    }
  }

  /** A subsequence of the tail of `ys` is a subsequence of `ys`. */
  lemma {:induction false} SkipHead<T>(xs: seq<T>, ys: seq<T>)
    requires ys != [] && Subsequence(xs, ys[1..])
    ensures Subsequence(xs, ys)
    decreases |ys|, 0
  {
    if xs != [] && xs[0] == ys[0] {
      DropFirst(xs, ys[1..]);
    }
  }

  /** Leaving out the first element of a subsequence keeps it one. */
  lemma {:induction false} DropFirst<T>(xs: seq<T>, ys: seq<T>)
    requires xs != [] && Subsequence(xs, ys)
    ensures Subsequence(xs[1..], ys)
    decreases |ys|, 1
  {
    if xs[0] == ys[0] {
      SkipHead(xs[1..], ys);
    } else {
      DropFirst(xs, ys[1..]);
      SkipHead(xs[1..], ys);
    }
  }

  /** An empty search keeps every message. */
  lemma {:induction false} EmptyTermKeepsAll(ms: seq<MessageItem>)
    ensures FilterMessages(ms, "") == ms
  {
    if ms != [] {
      EmptyIncluded(LowerString(ms[0].recipient));
      EmptyTermKeepsAll(ms[1..]);
    }
  }

  /** Terms that lower-case alike give the same result. */
  lemma {:induction false} CaseInsensitive(ms: seq<MessageItem>, term: string, other: string)
    requires LowerString(term) == LowerString(other)
    ensures FilterMessages(ms, term) == FilterMessages(ms, other)
  {
    if ms != [] {
      CaseInsensitive(ms[1..], term, other);
    }
  }

  /** In particular, searching for the lower-cased term changes nothing. */
  lemma {:induction false} LowerCasedTermSameResult(ms: seq<MessageItem>, term: string)
    ensures FilterMessages(ms, LowerString(term)) == FilterMessages(ms, term)
  {
    LowerStringIdempotent(term);
    CaseInsensitive(ms, LowerString(term), term);
  }

  // -------------------------------------------------------------- badges

  /** The badge colour for a status. */
  function BadgeOf(status: string): (b: Badge)
    ensures b == Green <==> status == "success"
    ensures b == Red <==> status == "failed"
    ensures b == Yellow <==> status == "pending"
    ensures b == Blue <==> status !in {"success", "failed", "pending"}
  {
    if status == "success" then Green
    else if status == "failed" then Red
    else if status == "pending" then Yellow
    else Blue
  }

  /** The statuses the send path writes into the ledger: pending rows are
      yellow, failed ones red, sent and delivered ones blue. None is ever
      green, since the ledger never says "success". */
  lemma LedgerStatusBadges(s: Ledger.MessageStatus)
    ensures BadgeOf(Ledger.StatusText(s)) != Green
    ensures BadgeOf(Ledger.StatusText(s)) == match s
      case Pending => Yellow
      case Failed => Red
      case Sent => Blue
      case Delivered => Blue
  {
  }
}

=== FILE: send_messagebird_sms.dfy ===
/** The send-messagebird-sms edge function: validate, post a JSON message
    with an `AccessKey` header to MessageBird, and mark the matching pending
    ledger rows sent. */
module SendMessageBirdSms {
  import opened Common
  import opened Ledger
  import opened Gateway

  /** A MessageBird reply: the descriptions of its `errors` entries (an
      error reply), or its `id` and `status` (an accepted message). */
  datatype MessageBirdReply = MessageBirdReply(errors: seq<Option<string>>, id: Option<string>, status: Option<string>)

  /** The success body `{ success: true, message_id, status }`. */
  datatype Receipt = Receipt(messageId: Option<string>, status: Option<string>)

  const SendFailed := "Failed to send message"

  predicate ParamsPresent(p: SendParams) {
    Truthy(p.gatewayId) && Truthy(p.recipient) && Truthy(p.message)
  }

  predicate CredentialsPresent(g: Lookup) {
    Truthy(Credential(g, "api_key")) && Truthy(Credential(g, "originator"))
  }

  /** The handler's guards, in the order it evaluates them. */
  function Guards(req: SendRequest, env: Env, gateway: Lookup): seq<Check> {
    [ Check(Truthy(req.authorization), MissingAuth),
      Check(req.body.Parsed?, ParseError(req.body)),
      Check(ParamsPresent(ParamsOf(req.body)), MissingParams),
      Check(Configured(env), MissingConfig),
      Check(!gateway.LookupError?, LookupDenied),
      Check(HasProvider(gateway, "messagebird"), WrongProvider),
      Check(CredentialsPresent(gateway), BadCredentials) ]
  }

  function Fail(message: string, lookup: Option<string>, calls: seq<ProviderRequest>,
                ledger: seq<MessageRow>): Outcome<Receipt> {
    Outcome(Reject(message), lookup, calls, ledger)
  }

  /** The request handler; `reply` is MessageBird's answer. */
  function Handle(req: SendRequest, env: Env, gateway: Lookup, reply: Fetch<MessageBirdReply>,
                  ledger: seq<MessageRow>, update: WriteResult, now: nat): (out: Outcome<Receipt>)
    ensures req.httpMethod == "OPTIONS" <==> out.response.NoContent?
    ensures req.httpMethod == "OPTIONS" ==> out.lookup.None? && out.calls == [] && out.ledger == ledger
    ensures out.lookup.Some? ==>
      && Truthy(req.authorization) && req.body.Parsed? && ParamsPresent(req.body.value)
      && Configured(env) && out.lookup == req.body.value.gatewayId
    // MessageBird is called only with a MessageBird gateway holding an API
    // key and an originator, and then once: `AccessKey <api_key>` and a body
    // addressed to exactly one recipient.
    ensures out.calls != [] ==>
      && out.lookup.Some?
      && HasProvider(gateway, "messagebird") && CredentialsPresent(gateway)
      && var creds := gateway.row.value.credentials;
         out.calls == [JsonPost(MessageBirdMessagesUrl, AccessKey(creds["api_key"]),
                                MessageBirdMessage(creds["originator"], [req.body.value.recipient.value],
                                                   req.body.value.message.value))]
    ensures out.response.Ok? ==>
      && out.calls != [] && reply.Answered? && Ok2xx(reply.status)
      && out.response.body == Receipt(reply.data.id, reply.data.status)
      && var p := req.body.value;
         out.ledger == Reconcile(ledger, Filter(p.gatewayId.value, p.recipient.value, p.message), update, now)
    ensures out.response.BadRequest? ==> out.response.error != "" && out.ledger == ledger
  {
    if req.httpMethod == "OPTIONS" then Outcome(NoContent, None, [], ledger)
    else if !Truthy(req.authorization) then Fail(MissingAuth, None, [], ledger)
    else if req.body.Malformed? then Fail(req.body.reason, None, [], ledger)
    else
      var p := req.body.value;
      if !Truthy(p.gatewayId) || !Truthy(p.recipient) || !Truthy(p.message) then
        Fail(MissingParams, None, [], ledger)
      else if !Configured(env) then Fail(MissingConfig, None, [], ledger)
      else
        var looked := Some(p.gatewayId.value);
        if gateway.LookupError? then Fail(LookupDenied, looked, [], ledger)
        else if gateway.row.None? || gateway.row.value.provider != "messagebird" then
          Fail(WrongProvider, looked, [], ledger)
        else
          var creds := gateway.row.value.credentials;
          var key := Field(creds, "api_key");
          var originator := Field(creds, "originator");
          if !Truthy(key) || !Truthy(originator) then Fail(BadCredentials, looked, [], ledger)
          else
            var call := JsonPost(MessageBirdMessagesUrl, AccessKey(key.value),
                                 MessageBirdMessage(originator.value, [p.recipient.value], p.message.value));
            match reply
            case Thrown(reason) => Fail(reason, looked, [call], ledger)
            case Answered(status, data) =>
              if !Ok2xx(status) then Fail(Or(FirstDescription(data.errors), SendFailed), looked, [call], ledger)
              else
                var f := Filter(p.gatewayId.value, p.recipient.value, p.message);
                Outcome(Ok(Receipt(data.id, data.status)), looked, [call], Reconcile(ledger, f, update, now))
  }

  /** Past the preflight check, the response carries the error of the first
      failing guard, and then MessageBird is not called. */
  lemma GuardOrder(req: SendRequest, env: Env, gateway: Lookup, reply: Fetch<MessageBirdReply>,
                   ledger: seq<MessageRow>, update: WriteResult, now: nat)
    requires req.httpMethod != "OPTIONS"
    ensures var out := Handle(req, env, gateway, reply, ledger, update, now);
      match FirstFailure(Guards(req, env, gateway))
      case Some(e) => out.response == Reject(e) && out.calls == [] && out.ledger == ledger
      case None => |out.calls| == 1
  {
    var checks := Guards(req, env, gateway);
    if !checks[0].passes {
      FirstFailureAt(checks, 0);
    } else if !checks[1].passes {
      FirstFailureAt(checks, 1);
    } else if !checks[2].passes {
      FirstFailureAt(checks, 2);
    } else {
      LateGuards(req, env, gateway, reply, ledger, update, now);
    }
  }

  lemma LateGuards(req: SendRequest, env: Env, gateway: Lookup, reply: Fetch<MessageBirdReply>,
                   ledger: seq<MessageRow>, update: WriteResult, now: nat)
    requires req.httpMethod != "OPTIONS"
    requires var checks := Guards(req, env, gateway);
      checks[0].passes && checks[1].passes && checks[2].passes
    ensures var out := Handle(req, env, gateway, reply, ledger, update, now);
      match FirstFailure(Guards(req, env, gateway))
      case Some(e) => out.response == Reject(e) && out.calls == [] && out.ledger == ledger
      case None => |out.calls| == 1
  {
    var checks := Guards(req, env, gateway);
    if !checks[3].passes {
      FirstFailureAt(checks, 3);
    } else if !checks[4].passes {
      FirstFailureAt(checks, 4);
    } else {
      FinalGuards(req, env, gateway, reply, ledger, update, now);
    }
  }

  lemma FinalGuards(req: SendRequest, env: Env, gateway: Lookup, reply: Fetch<MessageBirdReply>,
                    ledger: seq<MessageRow>, update: WriteResult, now: nat)
    requires req.httpMethod != "OPTIONS"
    requires var checks := Guards(req, env, gateway);
      checks[0].passes && checks[1].passes && checks[2].passes && checks[3].passes && checks[4].passes
    ensures var out := Handle(req, env, gateway, reply, ledger, update, now);
      match FirstFailure(Guards(req, env, gateway))
      case Some(e) => out.response == Reject(e) && out.calls == [] && out.ledger == ledger
      case None => |out.calls| == 1
  {
    var checks := Guards(req, env, gateway);
    if !checks[5].passes {
      FirstFailureAt(checks, 5);
    } else if !checks[6].passes {
      FirstFailureAt(checks, 6);
    } else {
      FirstFailureMeaning(checks);
    }
  }

  /** What a validated send reports for each provider answer: the thrown
      reason, or the first error's description, or "Failed to send message". */
  lemma ProviderErrors(req: SendRequest, env: Env, gateway: Lookup, reply: Fetch<MessageBirdReply>,
                       ledger: seq<MessageRow>, update: WriteResult, now: nat)
    requires req.httpMethod != "OPTIONS" && FirstFailure(Guards(req, env, gateway)).None?
    ensures var out := Handle(req, env, gateway, reply, ledger, update, now);
      && (reply.Thrown? ==> out.response == Reject(reply.reason))
      && (reply.Answered? && !Ok2xx(reply.status) ==>
            if |reply.data.errors| > 0 && Truthy(reply.data.errors[0])
            then out.response == BadRequest(reply.data.errors[0].value)
            else out.response == BadRequest(SendFailed))
      && (reply.Answered? && Ok2xx(reply.status) <==> out.response.Ok?)
  {
    var checks := Guards(req, env, gateway);
    FirstFailureMeaning(checks);
    assert checks[0].passes && checks[1].passes && checks[2].passes && checks[3].passes;
    assert checks[4].passes && checks[5].passes && checks[6].passes;
  }

  /** A failed ledger update is not reported and leaves the ledger alone. */
  lemma LedgerErrorSwallowed(req: SendRequest, env: Env, gateway: Lookup, reply: Fetch<MessageBirdReply>,
                             ledger: seq<MessageRow>, now: nat, e: string)
    ensures Handle(req, env, gateway, reply, ledger, WriteError(e), now).response
            == Handle(req, env, gateway, reply, ledger, Written, now).response
    ensures Handle(req, env, gateway, reply, ledger, WriteError(e), now).ledger == ledger
  {
  }
}

=== FILE: send_sms_page.dfy ===
/** The Send SMS page: the form schema, the gateway-credits query and its
    `enabled` flag, the submit handler's balance gate, the ledger row it
    inserts and the send it issues, and the submit button's disabled state.

    Every store, session and HTTP answer is an input; the handlers return
    what they would write, call and show. */
module SendSmsPage {
  import opened Common
  import Ledger
  import Gateway
  import SendTwilioSms

  // ---------------------------------------------------------------- schema

  /** The form values as react-hook-form hands them over; a field the user
      never touched is absent. */
  datatype FormInput = FormInput(
    gatewayId: Option<string>,
    senderId: Option<string>,
    recipient: Option<string>,
    message: Option<string>,
    scheduledFor: Option<string>)

  /** A form that passed the schema. */
  datatype SendForm = SendForm(
    gatewayId: string,
    senderId: string,
    recipient: string,
    message: string,
    scheduledFor: Option<string>)

  datatype Issue = Issue(field: string, message: string)

  datatype Validation = Valid(form: SendForm) | Invalid(issues: seq<Issue>)

  const MaxMessage := 160
  const TooLong := "Message must be less than 160 characters"

  /** The schema's demands, stated directly: three non-empty strings and a
      message of 1 to 160 UTF-16 code units (zod measures `.length`); the
      schedule is optional. */
  predicate Acceptable(input: FormInput) {
    && input.gatewayId.Some? && JsLength(input.gatewayId.value) >= 1
    && input.senderId.Some? && JsLength(input.senderId.value) >= 1
    && input.recipient.Some? && JsLength(input.recipient.value) >= 1
    && input.message.Some? && 1 <= JsLength(input.message.value) <= MaxMessage
  }

  /** `z.string().min(1, minMessage)`: zod's "Required" for a missing value. */
  function StringIssue(field: string, value: Option<string>, minMessage: string): Option<Issue> {
    if value.None? then Some(Issue(field, "Required"))
    else if JsLength(value.value) < 1 then Some(Issue(field, minMessage))
    else None
  }

  /** The message field also carries `.max(160, ...)`. */
  function MessageIssue(value: Option<string>): Option<Issue> {
    if value.None? then Some(Issue("message", "Required"))
    else if JsLength(value.value) < 1 then Some(Issue("message", "Message is required"))
    else if JsLength(value.value) > MaxMessage then Some(Issue("message", TooLong))
    else None
  }

  function Present(issue: Option<Issue>): seq<Issue> {
    if issue.Some? then [issue.value] else []
  }

  /** `sendSMSSchema.safeParse`: one issue per failing field, in the order
      the schema declares the fields. */
  function Validate(input: FormInput): (r: Validation)
    ensures r.Valid? <==> Acceptable(input)
    ensures r.Valid? ==>
      r.form == SendForm(input.gatewayId.value, input.senderId.value, input.recipient.value,
                         input.message.value, input.scheduledFor)
    ensures r.Invalid? ==> 1 <= |r.issues| <= 4
    ensures r.Invalid? ==> forall k :: 0 <= k < |r.issues| ==>
      r.issues[k].field in {"gateway_id", "sender_id", "recipient", "message"}
  {
    var issues := Present(StringIssue("gateway_id", input.gatewayId, "Gateway is required"))
                + Present(StringIssue("sender_id", input.senderId, "Sender is required"))
                + Present(StringIssue("recipient", input.recipient, "Recipient is required"))
                + Present(MessageIssue(input.message));
    if issues == [] then
      Valid(SendForm(input.gatewayId.value, input.senderId.value, input.recipient.value,
                     input.message.value, input.scheduledFor))
    else Invalid(issues)
  }

  /** The message length bound is inclusive: 160 code units pass, 161 are
      refused with "Message must be less than 160 characters". */
  lemma MessageLengthBoundary(g: string, s: string, to: string, text: string)
    requires g != "" && s != "" && to != ""
    ensures JsLength(text) == 160 ==> Validate(FormInput(Some(g), Some(s), Some(to), Some(text), None)).Valid?
    ensures JsLength(text) == 161 ==>
      Validate(FormInput(Some(g), Some(s), Some(to), Some(text), None)) == Invalid([Issue("message", TooLong)])
  {
  }

  /** Characters beyond the Basic Multilingual Plane count twice: a message
      of 81 emoji is 162 code units and is refused as too long, while 80
      emoji fill the limit exactly and pass. */
  lemma {:induction false} AstralMessageCountsTwice(g: string, s: string, to: string, text: string)
    requires g != "" && s != "" && to != ""
    requires forall i :: 0 <= i < |text| ==> Astral(text[i])
    ensures |text| == 81 ==>
      Validate(FormInput(Some(g), Some(s), Some(to), Some(text), None)) == Invalid([Issue("message", TooLong)])
    ensures |text| == 80 ==> Validate(FormInput(Some(g), Some(s), Some(to), Some(text), None)).Valid?
  {
    JsLengthOfAstral(text);
  }

  // ---------------------------------------------------------- gateway list

  /** An entry of the active-gateways list. */
  datatype GatewayOption = GatewayOption(id: string, provider: string)

  /** `gateways?.find(g => g.id === selectedGatewayId)`. */
  function FindGateway(gateways: Option<seq<GatewayOption>>, selected: Option<string>): (r: Option<GatewayOption>)
    ensures r.None? <==>
      gateways.None? || selected.None? || forall i :: 0 <= i < |gateways.value| ==> gateways.value[i].id != selected.value
    ensures r.Some? ==>
      exists i :: 0 <= i < |gateways.value| && gateways.value[i] == r.value && r.value.id == selected.value
                  && forall j :: 0 <= j < i ==> gateways.value[j].id != selected.value
  {
    if gateways.None? || selected.None? then None
    else FirstWithId(gateways.value, selected.value)
  }

  function FirstWithId(gateways: seq<GatewayOption>, id: string): (r: Option<GatewayOption>)
    ensures r.None? <==> forall i :: 0 <= i < |gateways| ==> gateways[i].id != id
    ensures r.Some? ==>
      exists i :: 0 <= i < |gateways| && gateways[i] == r.value && r.value.id == id
                  && forall j :: 0 <= j < i ==> gateways[j].id != id
  {
    if gateways == [] then None
    else if gateways[0].id == id then Some(gateways[0])
    else
      var rest := FirstWithId(gateways[1..], id);
      if rest.Some? then
        assert exists i :: (0 <= i < |gateways| && gateways[i] == rest.value && rest.value.id == id
                            && forall j :: 0 <= j < i ==> gateways[j].id != id) by {
          var i :| 0 <= i < |gateways[1..]| && gateways[1..][i] == rest.value && rest.value.id == id
            && forall j :: 0 <= j < i ==> gateways[1..][j].id != id;
          assert gateways[i + 1] == rest.value;
          forall j | 0 <= j < i + 1 ensures gateways[j].id != id {
            if j > 0 { assert gateways[j] == gateways[1..][j - 1]; }
          }
        }
        rest
      else
        assert forall i :: 0 <= i < |gateways| ==> gateways[i].id != id by {
          forall i | 0 <= i < |gateways| ensures gateways[i].id != id {
            if i > 0 { assert gateways[i] == gateways[1..][i - 1]; }
          }
        }
        None
  }

  function SelectedProvider(gateways: Option<seq<GatewayOption>>, selected: Option<string>): Option<string> {
    var g := FindGateway(gateways, selected);
    if g.Some? then Some(g.value.provider) else None
  }

  // ------------------------------------------------------ the enabled flag

  /** Enough of JavaScript's values to evaluate the `enabled` expression. */
  datatype JsValue = JsBool(b: bool) | JsString(s: string) | JsUndefined

  /** `a === b`: same type and same value. */
  predicate StrictEquals(a: JsValue, b: JsValue) {
    match (a, b)
    case (JsBool(x), JsBool(y)) => x == y
    case (JsString(x), JsString(y)) => x == y
    case (JsUndefined, JsUndefined) => true
    case _ => false
  }

  function JsOf(s: Option<string>): JsValue {
    if s.Some? then JsString(s.value) else JsUndefined
  }

  /** JavaScript truthiness on these values: everything except `false`, the
      empty string and `undefined`. */
  predicate JsTruthy(v: JsValue) {
    v != JsBool(false) && v != JsString("") && v != JsUndefined
  }

  /** A text field is truthy in JavaScript exactly when `Truthy` says so. */
  lemma JsTruthyOfText(s: Option<string>)
    ensures JsTruthy(JsOf(s)) <==> Truthy(s)
  {
  }

  /** `!!v`: the boolean that is `v`'s truthiness. */
  function DoubleNot(v: JsValue): (r: JsValue)
    ensures r == JsBool(JsTruthy(v))
  {
    match v
    case JsBool(b) => JsBool(b)
    case JsString(s) => JsBool(s != "")
    case JsUndefined => JsBool(false)
  }

  /** The query's `enabled` as written: `!!selectedGatewayId &&
      !!gateways?.find(...)?.provider === 'twilio'`. `!!` binds tighter
      than `===`, so the right operand compares a boolean with a string. */
  predicate EnabledAsWritten(gateways: Option<seq<GatewayOption>>, selected: Option<string>) {
    Truthy(selected)
    && StrictEquals(DoubleNot(JsOf(SelectedProvider(gateways, selected))), JsString("twilio"))
  }

  /** What the flag evidently means: a gateway is selected and it is a
      Twilio one. */
  predicate EnabledIntended(gateways: Option<seq<GatewayOption>>, selected: Option<string>) {
    Truthy(selected) && SelectedProvider(gateways, selected) == Some("twilio")
  }

  /** As written, the credits query is never enabled. */
  lemma EnabledAsWrittenNeverHolds(gateways: Option<seq<GatewayOption>>, selected: Option<string>)
    ensures !EnabledAsWritten(gateways, selected)
  {
  }

  /** The evidently intended flag does hold for a selected Twilio gateway. */
  lemma EnabledIntendedForTwilio(id: string, rest: seq<GatewayOption>)
    requires id != ""
    ensures EnabledIntended(Some([GatewayOption(id, "twilio")] + rest), Some(id))
    ensures !EnabledAsWritten(Some([GatewayOption(id, "twilio")] + rest), Some(id))
  {
  }

  // ------------------------------------------------------ the credits query

  /** The balance the page shows and gates on. */
  datatype Credits = Credits(balance: real, currency: Option<string>)

  /** What get-twilio-credits answers: its balance fields, or `{ error }`. */
  datatype CreditsReply = CreditsReply(balance: real, currency: Option<string>, error: Option<string>)

  datatype CreditsRequest = CreditsRequest(gatewayId: string, accessToken: string)

  datatype QueryResult = NoData | Loaded(credits: Credits) | QueryFailed(message: string)

  datatype QueryOutcome = QueryOutcome(result: QueryResult, request: Option<CreditsRequest>)

  const NoAccessToken := "No access token found"
  const CreditsFailed := "Failed to fetch gateway credits"

  /** The query function: null unless a Twilio gateway is selected; then
      the session's access token is required and get-twilio-credits is
      called for the selected id. */
  function QueryFn(gateways: Option<seq<GatewayOption>>, selected: Option<string>,
                   accessToken: Option<string>, reply: Fetch<CreditsReply>): (out: QueryOutcome)
    ensures out.request.Some? ==>
      Truthy(selected) && Truthy(accessToken)
      && out.request.value == CreditsRequest(selected.value, accessToken.value)
    ensures out.result.Loaded? ==>
      && out.request.Some? && reply.Answered? && Ok2xx(reply.status)
      && out.result.credits == Credits(reply.data.balance, reply.data.currency)
    // Without a token the endpoint is not called; a failure after the call
    // comes from the endpoint's answer or from the call itself.
    ensures out.result.QueryFailed? && out.request.None? ==> out.result.message == NoAccessToken
    ensures out.result.QueryFailed? && out.request.Some? ==> !(reply.Answered? && Ok2xx(reply.status))
  {
    if !Truthy(selected) then QueryOutcome(NoData, None)
    else
      var gateway := FindGateway(gateways, selected);
      if gateway.None? || gateway.value.provider != "twilio" then QueryOutcome(NoData, None)
      else if !Truthy(accessToken) then QueryOutcome(QueryFailed(NoAccessToken), None)
      else
        var request := Some(CreditsRequest(selected.value, accessToken.value));
        match reply
        case Thrown(reason) => QueryOutcome(QueryFailed(reason), request)
        case Answered(status, data) =>
          if !Ok2xx(status) then QueryOutcome(QueryFailed(Or(data.error, CreditsFailed)), request)
          else QueryOutcome(Loaded(Credits(data.balance, data.currency)), request)
  }

  /** The intended flag describes exactly when the query function does any
      work: it returns null precisely when the flag is off, and calls the
      credits endpoint precisely when the flag is on and a token exists. */
  lemma QueryFnMatchesIntendedFlag(gateways: Option<seq<GatewayOption>>, selected: Option<string>,
                                   accessToken: Option<string>, reply: Fetch<CreditsReply>)
    ensures QueryFn(gateways, selected, accessToken, reply).result.NoData?
            <==> !EnabledIntended(gateways, selected)
    ensures QueryFn(gateways, selected, accessToken, reply).request.Some?
            <==> EnabledIntended(gateways, selected) && Truthy(accessToken)
  {
  }

  /** The `gatewayCredits` the page holds: nothing while the query is
      disabled, or when it returned null or failed. */
  function CreditsHeld(enabled: bool, result: QueryResult): (r: Option<Credits>)
    ensures r.Some? <==> enabled && result.Loaded?
    ensures r.Some? ==> r.value == result.credits
  {
    if enabled && result.Loaded? then Some(result.credits) else None
  }

  // ------------------------------------------------------------ submission

  /** `!gatewayCredits || gatewayCredits.balance <= 0`. */
  predicate Insufficient(credits: Option<Credits>) {
    credits.None? || credits.value.balance <= 0.0
  }

  /** The `messages` row the submit handler inserts. */
  datatype NewMessage = NewMessage(
    gatewayId: string,
    recipient: string,
    message: string,
    scheduledFor: Option<string>,
    status: Ledger.MessageStatus)

  /** The body posted to send-twilio-sms. */
  datatype SmsPayload = SmsPayload(gatewayId: string, senderId: string, recipient: string, message: string)

  datatype SendCall = SendCall(accessToken: string, payload: SmsPayload)

  /** What the send function answers: its `error` field, if any. */
  datatype SendReply = SendReply(error: Option<string>)

  datatype Toast = ErrorToast(text: string) | SuccessToast(text: string)

  datatype SubmitOutcome = SubmitOutcome(
    toast: Toast,
    inserted: Option<NewMessage>,
    sendCall: Option<SendCall>,
    reset: bool)

  const InsufficientBalance := "Insufficient gateway balance. Please contact your administrator."
  const SendFailed := "Failed to send message"
  const TryAgain := "Failed to send message. Please try again."
  const Scheduled := "Message scheduled successfully!"
  const SentNow := "Message sent successfully!"

  /** `data.scheduledFor ? 'pending' : 'sent'`. */
  function InitialStatus(scheduledFor: Option<string>): (s: Ledger.MessageStatus)
    ensures s == Ledger.Pending <==> Truthy(scheduledFor)
    ensures s == Ledger.Sent <==> !Truthy(scheduledFor)
  {
    if Truthy(scheduledFor) then Ledger.Pending else Ledger.Sent
  }

  /** The row for a validated form: `scheduled_for` is the schedule or null. */
  function RowFor(form: SendForm): NewMessage {
    NewMessage(form.gatewayId, form.recipient, form.message,
               if Truthy(form.scheduledFor) then form.scheduledFor else None,
               InitialStatus(form.scheduledFor))
  }

  /** The `catch` block: `err.message || 'Failed to send message. Please try again.'`. */
  function Caught(message: string): (r: Toast)
    ensures r.ErrorToast? && r.text != ""
    ensures message != "" ==> r.text == message
  {
    ErrorToast(if message != "" then message else TryAgain)
  }

  /** `onSubmit`: refuse without a positive balance; otherwise insert the
      row, then, for an immediate message, send it with the session's
      access token. */
  function Submit(form: SendForm, credits: Option<Credits>, insert: WriteResult,
                  accessToken: Option<string>, reply: Fetch<SendReply>): (out: SubmitOutcome)
    // The balance gate: nothing is written or sent without a positive balance.
    ensures Insufficient(credits) <==> out.inserted.None?
    ensures Insufficient(credits) ==> out.toast == ErrorToast(InsufficientBalance) && out.sendCall.None?
    // The inserted row is pending exactly when a schedule was given.
    ensures out.inserted.Some? ==>
      && out.inserted.value.gatewayId == form.gatewayId
      && out.inserted.value.recipient == form.recipient
      && out.inserted.value.message == form.message
      && (out.inserted.value.status == Ledger.Pending <==> Truthy(form.scheduledFor))
    // `scheduled_for: data.scheduledFor || null`: an empty schedule is stored as null.
    ensures out.inserted.Some? && Truthy(form.scheduledFor) ==>
      out.inserted.value.scheduledFor == form.scheduledFor
    ensures out.inserted.Some? && !Truthy(form.scheduledFor) ==> out.inserted.value.scheduledFor.None?
    // The send is issued exactly for an immediate message whose row was stored
    // while a session token was at hand.
    ensures out.sendCall.Some? <==>
      !Insufficient(credits) && insert.Written? && !Truthy(form.scheduledFor) && Truthy(accessToken)
    ensures out.sendCall.Some? ==>
      && out.inserted.Some?
      && out.sendCall.value
         == SendCall(accessToken.value, SmsPayload(form.gatewayId, form.senderId, form.recipient, form.message))
    // Success: the row was stored and, if immediate, the send was answered 2xx.
    ensures out.toast.SuccessToast? <==>
      && !Insufficient(credits) && insert.Written?
      && (Truthy(form.scheduledFor) || (Truthy(accessToken) && reply.Answered? && Ok2xx(reply.status)))
    ensures out.reset <==> out.toast.SuccessToast?
    ensures out.toast.ErrorToast? ==> out.toast.text != ""
  {
    if Insufficient(credits) then SubmitOutcome(ErrorToast(InsufficientBalance), None, None, false)
    else
      var row := RowFor(form);
      match insert
      case WriteError(e) => SubmitOutcome(Caught(e), Some(row), None, false)
      case Written =>
        if Truthy(form.scheduledFor) then SubmitOutcome(SuccessToast(Scheduled), Some(row), None, true)
        else if !Truthy(accessToken) then SubmitOutcome(Caught(NoAccessToken), Some(row), None, false)
        else
          var call := Some(SendCall(accessToken.value,
                                    SmsPayload(form.gatewayId, form.senderId, form.recipient, form.message)));
          match reply
          case Thrown(reason) => SubmitOutcome(Caught(reason), Some(row), call, false)
          case Answered(status, data) =>
            if !Ok2xx(status) then SubmitOutcome(Caught(Or(data.error, SendFailed)), Some(row), call, false)
            else SubmitOutcome(SuccessToast(SentNow), Some(row), call, true)
  }

  /** The success toast names what happened: "scheduled" for a scheduled
      message, "sent" for an immediate one. */
  lemma SuccessToastText(form: SendForm, credits: Option<Credits>, insert: WriteResult,
                         accessToken: Option<string>, reply: Fetch<SendReply>)
    requires Submit(form, credits, insert, accessToken, reply).toast.SuccessToast?
    ensures Submit(form, credits, insert, accessToken, reply).toast.text
            == if Truthy(form.scheduledFor) then Scheduled else SentNow
  {
  }

  /** The row is stored before the send and already says "sent": a failed
      send leaves a `sent` row behind and shows an error. */
  lemma FailedSendLeavesSentRow(form: SendForm, credits: Option<Credits>, accessToken: Option<string>,
                                reply: Fetch<SendReply>)
    requires !Insufficient(credits) && !Truthy(form.scheduledFor)
    requires reply.Thrown? || !Ok2xx(reply.status)
    ensures var out := Submit(form, credits, Written, accessToken, reply);
      out.toast.ErrorToast? && out.inserted.Some? && out.inserted.value.status == Ledger.Sent
  {
  }

  /** `disabled={loading || !selectedGatewayId || !gatewayCredits ||
      gatewayCredits.balance <= 0}`. */
  predicate SubmitDisabled(loading: bool, selected: Option<string>, credits: Option<Credits>) {
    loading || !Truthy(selected) || Insufficient(credits)
  }

  /** An enabled button never meets the balance refusal, and a disabled
      button that is neither loading nor missing a gateway is disabled
      precisely because of that refusal. */
  lemma ButtonAgreesWithGate(loading: bool, selected: Option<string>, form: SendForm, credits: Option<Credits>,
                             insert: WriteResult, accessToken: Option<string>, reply: Fetch<SendReply>)
    ensures !SubmitDisabled(loading, selected, credits) ==>
      Submit(form, credits, insert, accessToken, reply).inserted.Some?
    ensures !loading && Truthy(selected) ==>
      (SubmitDisabled(loading, selected, credits)
       <==> Submit(form, credits, insert, accessToken, reply).toast == ErrorToast(InsufficientBalance)
            && Submit(form, credits, insert, accessToken, reply).inserted.None?)
  {
  }

  /** With the flag as written the page never holds credits, so the button
      is always disabled and every submission is refused without writing. */
  lemma {:induction false} SubmitAlwaysBlockedAsWritten(
    gateways: Option<seq<GatewayOption>>, selected: Option<string>, result: QueryResult,
    loading: bool, form: SendForm, insert: WriteResult, accessToken: Option<string>, reply: Fetch<SendReply>)
    ensures var credits := CreditsHeld(EnabledAsWritten(gateways, selected), result);
      && SubmitDisabled(loading, selected, credits)
      && Submit(form, credits, insert, accessToken, reply)
         == SubmitOutcome(ErrorToast(InsufficientBalance), None, None, false)
  {
    EnabledAsWrittenNeverHolds(gateways, selected);
  }

  /** With the intended flag, a selected Twilio gateway whose balance loads
      as positive lets the submission through to the insert. */
  lemma {:induction false} IntendedFlagAllowsSubmit(
    gateways: Option<seq<GatewayOption>>, selected: Option<string>, token: Option<string>,
    creditsReply: Fetch<CreditsReply>, form: SendForm, insert: WriteResult, accessToken: Option<string>,
    reply: Fetch<SendReply>)
    requires EnabledIntended(gateways, selected) && Truthy(token)
    requires creditsReply.Answered? && Ok2xx(creditsReply.status) && creditsReply.data.balance > 0.0
    ensures var q := QueryFn(gateways, selected, token, creditsReply);
      var credits := CreditsHeld(EnabledIntended(gateways, selected), q.result);
      && !SubmitDisabled(false, selected, credits)
      && Submit(form, credits, insert, accessToken, reply).inserted.Some?
  {
    var q := QueryFn(gateways, selected, token, creditsReply);
    assert q.result == Loaded(Credits(creditsReply.data.balance, creditsReply.data.currency));
  }

  // ------------------------------------------------ agreement with the ledger

  /** The row as the `messages` table stores it under the id it is given. */
  function Stored(id: string, row: NewMessage): Ledger.MessageRow {
    Ledger.MessageRow(id, row.gatewayId, row.recipient, Some(row.message), row.status, row.scheduledFor, None)
  }

  /** An immediate message is stored as `sent`, so no send function's
      pending-to-sent update ever selects it. */
  lemma ImmediateRowNeverReconciled(form: SendForm, id: string, f: Ledger.Filter)
    requires !Truthy(form.scheduledFor)
    ensures !Ledger.Selects(f, Stored(id, RowFor(form)))
  {
  }

  /** A scheduled message is stored as `pending`, so an immediate send of
      the same text to the same recipient through the same gateway marks it
      sent as well. */
  lemma ScheduledRowMatchedBySameSend(form: SendForm, id: string)
    requires Truthy(form.scheduledFor)
    ensures Ledger.Selects(Ledger.Filter(form.gatewayId, form.recipient, Some(form.message)), Stored(id, RowFor(form)))
  {
  }

  /** A validated form's payload passes the send function's parameter
      check: gateway id, recipient and message are all non-empty. */
  lemma ValidFormPassesParamsCheck(input: FormInput)
    requires Validate(input).Valid?
    ensures var form := Validate(input).form;
      SendTwilioSms.ParamsPresent(
        Gateway.SendParams(Some(form.gatewayId), Some(form.recipient), Some(form.message), None, None))
  {
  }
}

=== FILE: send_twilio_sms.dfy ===
/** The send-twilio-sms edge function: validate the request and the gateway,
    post the SMS to Twilio's Messages resource as a form, and mark the
    matching pending ledger rows sent. */
module SendTwilioSms {
  import opened Common
  import opened Ledger
  import opened Gateway

  /** A Twilio JSON reply, by its top-level string fields (`sid`, `status`, `message`, ...). */
  type TwilioReply = map<string, string>

  /** The success body `{ success: true, message_sid, status }`. */
  datatype Receipt = Receipt(messageSid: Option<string>, status: Option<string>)

  predicate ParamsPresent(p: SendParams) {
    Truthy(p.gatewayId) && Truthy(p.recipient) && Truthy(p.message)
  }

  predicate CredentialsPresent(g: Lookup) {
    && Truthy(Credential(g, "account_sid"))
    && Truthy(Credential(g, "auth_token"))
    && Truthy(Credential(g, "sender_number"))
  }

  /** The handler's guards, in the order it evaluates them. */
  function Guards(req: SendRequest, env: Env, gateway: Lookup): seq<Check> {
    [ Check(Truthy(req.authorization), MissingAuth),
      Check(req.body.Parsed?, ParseError(req.body)),
      Check(ParamsPresent(ParamsOf(req.body)), MissingParams),
      Check(Configured(env), MissingConfig),
      Check(!gateway.LookupError?, LookupDenied),
      Check(HasRow(gateway), NotFound),
      Check(HasProvider(gateway, "twilio"), WrongProvider),
      Check(CredentialsPresent(gateway), BadCredentials) ]
  }

  function Fail(message: string, lookup: Option<string>, calls: seq<ProviderRequest>,
                ledger: seq<MessageRow>): Outcome<Receipt> {
    Outcome(Reject(message), lookup, calls, ledger)
  }

  /** The request handler. `gateway` is what the `gateways` lookup answers,
      `reply` what Twilio answers to the request the handler issues, and
      `update` what the store answers to the ledger update. */
  function Handle(req: SendRequest, env: Env, gateway: Lookup, reply: Fetch<TwilioReply>,
                  ledger: seq<MessageRow>, update: WriteResult, now: nat): (out: Outcome<Receipt>)
    // A preflight is answered 204 and touches nothing.
    ensures req.httpMethod == "OPTIONS" <==> out.response.NoContent?
    ensures req.httpMethod == "OPTIONS" ==> out.lookup.None? && out.calls == [] && out.ledger == ledger
    // The gateway is looked up, by the requested id, only once the caller is
    // authenticated, the parameters are present and the store is configured.
    ensures out.lookup.Some? ==>
      && Truthy(req.authorization) && req.body.Parsed? && ParamsPresent(req.body.value)
      && Configured(env) && out.lookup == req.body.value.gatewayId
    // No provider call before every validation passed; then exactly one,
    // carrying To, From and Body and the account's Basic credentials.
    ensures out.calls != [] ==>
      && out.lookup.Some?
      && HasProvider(gateway, "twilio") && CredentialsPresent(gateway)
      && var creds := gateway.row.value.credentials;
         var sid := creds["account_sid"];
         out.calls == [FormPost(TwilioMessagesUrl(sid), Basic(sid + ":" + creds["auth_token"]),
                                [("To", req.body.value.recipient.value),
                                 ("From", creds["sender_number"]),
                                 ("Body", req.body.value.message.value)])]
    // Success means Twilio accepted the message; it reports Twilio's sid and
    // status, and the ledger write is the filtered pending-to-sent update.
    ensures out.response.Ok? ==>
      && out.calls != [] && reply.Answered? && Ok2xx(reply.status)
      && out.response.body == Receipt(Field(reply.data, "sid"), Field(reply.data, "status"))
      && var p := req.body.value;
         out.ledger == Reconcile(ledger, Filter(p.gatewayId.value, p.recipient.value, p.message), update, now)
    // Every failure is a 400 with a non-empty error and leaves the ledger alone.
    ensures out.response.BadRequest? ==> out.response.error != "" && out.ledger == ledger
  {
    if req.httpMethod == "OPTIONS" then Outcome(NoContent, None, [], ledger)
    else if !Truthy(req.authorization) then Fail(MissingAuth, None, [], ledger)
    else if req.body.Malformed? then Fail(req.body.reason, None, [], ledger)
    else
      var p := req.body.value;
      if !Truthy(p.gatewayId) || !Truthy(p.recipient) || !Truthy(p.message) then
        Fail(MissingParams, None, [], ledger)
      else if !Configured(env) then Fail(MissingConfig, None, [], ledger)
      else
        var looked := Some(p.gatewayId.value);
        if gateway.LookupError? then Fail(LookupDenied, looked, [], ledger)
        else if gateway.row.None? then Fail(NotFound, looked, [], ledger)
        else if gateway.row.value.provider != "twilio" then Fail(WrongProvider, looked, [], ledger)
        else
          var creds := gateway.row.value.credentials;
          var sid := Field(creds, "account_sid");
          var token := Field(creds, "auth_token");
          var sender := Field(creds, "sender_number");
          if !Truthy(sid) || !Truthy(token) || !Truthy(sender) then
            Fail(BadCredentials, looked, [], ledger)
          else
            var call := FormPost(TwilioMessagesUrl(sid.value), Basic(sid.value + ":" + token.value),
                                 [("To", p.recipient.value), ("From", sender.value), ("Body", p.message.value)]);
            match reply
            case Thrown(reason) => Fail("Failed to send SMS: " + reason, looked, [call], ledger)
            case Answered(status, data) =>
              if !Ok2xx(status) then
                Fail("Failed to send SMS: " + Or(Field(data, "message"), TwilioStatusError(status)),
                     looked, [call], ledger)
              else
                var f := Filter(p.gatewayId.value, p.recipient.value, p.message);
                Outcome(Ok(Receipt(Field(data, "sid"), Field(data, "status"))), looked, [call],
                        Reconcile(ledger, f, update, now))
  }

  /** The response to a request that gets past the preflight check carries
      the error of the first guard that fails, in the order auth header,
      body, parameters, configuration, lookup error, missing row, provider,
      credentials; and in that case Twilio is not called. */
  lemma GuardOrder(req: SendRequest, env: Env, gateway: Lookup, reply: Fetch<TwilioReply>,
                   ledger: seq<MessageRow>, update: WriteResult, now: nat)
    requires req.httpMethod != "OPTIONS"
    ensures var out := Handle(req, env, gateway, reply, ledger, update, now);
      match FirstFailure(Guards(req, env, gateway))
      case Some(e) => out.response == Reject(e) && out.calls == [] && out.ledger == ledger
      case None => |out.calls| == 1
  {
    var checks := Guards(req, env, gateway);
    if !checks[0].passes {
      FirstFailureAt(checks, 0);
    } else if !checks[1].passes {
      FirstFailureAt(checks, 1);
    } else if !checks[2].passes {
      FirstFailureAt(checks, 2);
    } else {
      LateGuards(req, env, gateway, reply, ledger, update, now);
    }
  }

  lemma LateGuards(req: SendRequest, env: Env, gateway: Lookup, reply: Fetch<TwilioReply>,
                   ledger: seq<MessageRow>, update: WriteResult, now: nat)
    requires req.httpMethod != "OPTIONS"
    requires var checks := Guards(req, env, gateway);
      checks[0].passes && checks[1].passes && checks[2].passes
    ensures var out := Handle(req, env, gateway, reply, ledger, update, now);
      match FirstFailure(Guards(req, env, gateway))
      case Some(e) => out.response == Reject(e) && out.calls == [] && out.ledger == ledger
      case None => |out.calls| == 1
  {
    var checks := Guards(req, env, gateway);
    if !checks[3].passes {
      FirstFailureAt(checks, 3);
    } else if !checks[4].passes {
      FirstFailureAt(checks, 4);
    } else if !checks[5].passes {
      FirstFailureAt(checks, 5);
    } else {
      FinalGuards(req, env, gateway, reply, ledger, update, now);
    }
  }

  lemma FinalGuards(req: SendRequest, env: Env, gateway: Lookup, reply: Fetch<TwilioReply>,
                    ledger: seq<MessageRow>, update: WriteResult, now: nat)
    requires req.httpMethod != "OPTIONS"
    requires var checks := Guards(req, env, gateway);
      checks[0].passes && checks[1].passes && checks[2].passes && checks[3].passes && checks[4].passes && checks[5].passes
    ensures var out := Handle(req, env, gateway, reply, ledger, update, now);
      match FirstFailure(Guards(req, env, gateway))
      case Some(e) => out.response == Reject(e) && out.calls == [] && out.ledger == ledger
      case None => |out.calls| == 1
  {
    var checks := Guards(req, env, gateway);
    if !checks[6].passes {
      FirstFailureAt(checks, 6);
    } else if !checks[7].passes {
      FirstFailureAt(checks, 7);
    } else {
      FirstFailureMeaning(checks);
    }
  }

  /** A missing Authorization header is reported before anything else
      happens, whatever the body, configuration or gateway. */
  lemma AuthHeaderFirst(req: SendRequest, env: Env, gateway: Lookup, reply: Fetch<TwilioReply>,
                        ledger: seq<MessageRow>, update: WriteResult, now: nat)
    requires req.httpMethod != "OPTIONS" && !Truthy(req.authorization)
    ensures Handle(req, env, gateway, reply, ledger, update, now)
            == Outcome(BadRequest(MissingAuth), None, [], ledger)
  {
  }

  /** What a validated send reports for each provider answer: a thrown
      request or a non-2xx reply becomes "Failed to send SMS: " followed by
      the reason, Twilio's message, or "Twilio API error: <status>". */
  lemma ProviderErrors(req: SendRequest, env: Env, gateway: Lookup, reply: Fetch<TwilioReply>,
                       ledger: seq<MessageRow>, update: WriteResult, now: nat)
    requires req.httpMethod != "OPTIONS" && FirstFailure(Guards(req, env, gateway)).None?
    ensures var out := Handle(req, env, gateway, reply, ledger, update, now);
      && (reply.Thrown? ==> out.response == BadRequest("Failed to send SMS: " + reply.reason))
      && (reply.Answered? && !Ok2xx(reply.status) ==>
            out.response == BadRequest("Failed to send SMS: "
                                       + Or(Field(reply.data, "message"), TwilioStatusError(reply.status))))
      && (reply.Answered? && Ok2xx(reply.status) <==> out.response.Ok?)
  {
    var checks := Guards(req, env, gateway);
    FirstFailureMeaning(checks);
    assert checks[0].passes && checks[1].passes && checks[2].passes && checks[3].passes;
    assert checks[4].passes && checks[5].passes && checks[6].passes && checks[7].passes;
  }

  /** A failed ledger update is not reported: the response is the one a
      successful update would have given, and the ledger stays as it was. */
  lemma LedgerErrorSwallowed(req: SendRequest, env: Env, gateway: Lookup, reply: Fetch<TwilioReply>,
                             ledger: seq<MessageRow>, now: nat, e: string)
    ensures Handle(req, env, gateway, reply, ledger, WriteError(e), now).response
            == Handle(req, env, gateway, reply, ledger, Written, now).response
    ensures Handle(req, env, gateway, reply, ledger, WriteError(e), now).ledger == ledger
  {
  }

  /** On success exactly the pending rows with the same gateway, recipient
      and text become sent at `now`; every other row is unchanged. */
  lemma SuccessMarksOnlyMatchingRows(req: SendRequest, env: Env, gateway: Lookup, reply: Fetch<TwilioReply>,
                                     ledger: seq<MessageRow>, now: nat)
    requires Handle(req, env, gateway, reply, ledger, Written, now).response.Ok?
    ensures var out := Handle(req, env, gateway, reply, ledger, Written, now);
      var p := req.body.value;
      && |out.ledger| == |ledger|
      && forall i :: 0 <= i < |ledger| ==>
           if ledger[i].gatewayId == p.gatewayId.value && ledger[i].recipient == p.recipient.value
              && ledger[i].message == p.message && ledger[i].status == Pending
           then out.ledger[i] == ledger[i].(status := Sent, sentAt := Some(now))
           else out.ledger[i] == ledger[i]
  {
  }
}

=== FILE: send_whatsapp_message.dfy ===
/** The send-whatsapp-message edge function: like the Twilio SMS endpoint,
    but both numbers carry the `whatsapp:` scheme, the message is either a
    content template or a free-form body, and the ledger update does not
    match on the message text. */
module SendWhatsAppMessage {
  import opened Common
  import opened Ledger
  import opened Gateway

  type TwilioReply = map<string, string>

  /** The success body `{ success: true, message_sid, status, details }`,
      where `details` is Twilio's whole reply. */
  datatype Receipt = Receipt(messageSid: Option<string>, status: Option<string>, details: TwilioReply)

  const MissingContent := "Either template_sid or message is required"

  predicate ParamsPresent(p: SendParams) {
    Truthy(p.gatewayId) && Truthy(p.recipient)
  }

  predicate CredentialsPresent(g: Lookup) {
    && Truthy(Credential(g, "account_sid"))
    && Truthy(Credential(g, "auth_token"))
    && Truthy(Credential(g, "whatsapp_number"))
  }

  predicate HasContent(p: SendParams) {
    Truthy(p.templateSid) || Truthy(p.message)
  }

  predicate HasKey(form: seq<(string, string)>, key: string) {
    exists i :: 0 <= i < |form| && form[i].0 == key
  }

  /** The handler's guards, in the order it evaluates them. A `null` row and
      a row of another provider give the same error. */
  function Guards(req: SendRequest, env: Env, gateway: Lookup): seq<Check> {
    [ Check(Truthy(req.authorization), MissingAuth),
      Check(req.body.Parsed?, ParseError(req.body)),
      Check(ParamsPresent(ParamsOf(req.body)), MissingParams),
      Check(Configured(env), MissingConfig),
      Check(!gateway.LookupError?, LookupDenied),
      Check(HasProvider(gateway, "whatsapp_twilio"), WrongProvider),
      Check(CredentialsPresent(gateway), BadCredentials),
      Check(HasContent(ParamsOf(req.body)), MissingContent) ]
  }

  /** The form posted to Twilio: `From` and `To` with the `whatsapp:` scheme,
      then either the template (`ContentSid`, plus `ContentVariables` when
      variables are given) or the free-form `Body`; None when there is
      neither a template nor a message. */
  function Form(number: string, recipient: string, p: SendParams): (form: Option<seq<(string, string)>>)
    ensures form.Some? <==> HasContent(p)
    ensures form.Some? ==>
      |form.value| >= 3 && form.value[..2] == [("From", "whatsapp:" + number), ("To", "whatsapp:" + recipient)]
    ensures form.Some? && Truthy(p.templateSid) ==>
      && form.value[2] == ("ContentSid", p.templateSid.value)
      && !HasKey(form.value, "Body")
      && (HasKey(form.value, "ContentVariables") <==> p.templateVariables.Some?)
    ensures form.Some? && !Truthy(p.templateSid) ==> form.value[2..] == [("Body", p.message.value)]
  {
    var head := [("From", "whatsapp:" + number), ("To", "whatsapp:" + recipient)];
    if Truthy(p.templateSid) then
      var vars := if p.templateVariables.Some? then [("ContentVariables", p.templateVariables.value)] else [];
      var form := head + [("ContentSid", p.templateSid.value)] + vars;
      assert form[2] == ("ContentSid", p.templateSid.value);
      assert p.templateVariables.Some? ==> form[3].0 == "ContentVariables";
      Some(form)
    else if Truthy(p.message) then
      Some(head + [("Body", p.message.value)])
    else
      None
  }

  function Fail(message: string, lookup: Option<string>, calls: seq<ProviderRequest>,
                ledger: seq<MessageRow>): Outcome<Receipt> {
    Outcome(Reject(message), lookup, calls, ledger)
  }

  /** The request handler; the oracles are as for the SMS endpoint. */
  function Handle(req: SendRequest, env: Env, gateway: Lookup, reply: Fetch<TwilioReply>,
                  ledger: seq<MessageRow>, update: WriteResult, now: nat): (out: Outcome<Receipt>)
    ensures req.httpMethod == "OPTIONS" <==> out.response.NoContent?
    ensures req.httpMethod == "OPTIONS" ==> out.lookup.None? && out.calls == [] && out.ledger == ledger
    ensures out.lookup.Some? ==>
      && Truthy(req.authorization) && req.body.Parsed? && ParamsPresent(req.body.value)
      && Configured(env) && out.lookup == req.body.value.gatewayId
    // Twilio is called only with a WhatsApp gateway, complete credentials
    // and something to send, and then with that gateway's Basic credentials
    // and the form built from the request.
    ensures out.calls != [] ==>
      && out.lookup.Some?
      && HasProvider(gateway, "whatsapp_twilio") && CredentialsPresent(gateway)
      && HasContent(req.body.value)
      && var creds := gateway.row.value.credentials;
         var sid := creds["account_sid"];
         var form := Form(creds["whatsapp_number"], req.body.value.recipient.value, req.body.value);
         out.calls == [FormPost(TwilioMessagesUrl(sid), Basic(sid + ":" + creds["auth_token"]), form.value)]
    // Success: Twilio accepted, the receipt passes its reply on, and the
    // ledger update matches gateway, recipient and `pending` only.
    ensures out.response.Ok? ==>
      && out.calls != [] && reply.Answered? && Ok2xx(reply.status)
      && out.response.body == Receipt(Field(reply.data, "sid"), Field(reply.data, "status"), reply.data)
      && var p := req.body.value;
         out.ledger == Reconcile(ledger, Filter(p.gatewayId.value, p.recipient.value, None), update, now)
    ensures out.response.BadRequest? ==> out.response.error != "" && out.ledger == ledger
  {
    if req.httpMethod == "OPTIONS" then Outcome(NoContent, None, [], ledger)
    else if !Truthy(req.authorization) then Fail(MissingAuth, None, [], ledger)
    else if req.body.Malformed? then Fail(req.body.reason, None, [], ledger)
    else
      var p := req.body.value;
      if !Truthy(p.gatewayId) || !Truthy(p.recipient) then Fail(MissingParams, None, [], ledger)
      else if !Configured(env) then Fail(MissingConfig, None, [], ledger)
      else
        var looked := Some(p.gatewayId.value);
        if gateway.LookupError? then Fail(LookupDenied, looked, [], ledger)
        else if gateway.row.None? || gateway.row.value.provider != "whatsapp_twilio" then
          Fail(WrongProvider, looked, [], ledger)
        else
          var creds := gateway.row.value.credentials;
          var sid := Field(creds, "account_sid");
          var token := Field(creds, "auth_token");
          var number := Field(creds, "whatsapp_number");
          if !Truthy(sid) || !Truthy(token) || !Truthy(number) then
            Fail(BadCredentials, looked, [], ledger)
          else
            var form := Form(number.value, p.recipient.value, p);
            if form.None? then Fail(MissingContent, looked, [], ledger)
            else
              var call := FormPost(TwilioMessagesUrl(sid.value), Basic(sid.value + ":" + token.value), form.value);
              match reply
              case Thrown(reason) => Fail(reason, looked, [call], ledger)
              case Answered(status, data) =>
                if !Ok2xx(status) then
                  Fail(Or(Field(data, "message"), TwilioStatusError(status)), looked, [call], ledger)
                else
                  var f := Filter(p.gatewayId.value, p.recipient.value, None);
                  Outcome(Ok(Receipt(Field(data, "sid"), Field(data, "status"), data)), looked, [call],
                          Reconcile(ledger, f, update, now))
  }

  /** Past the preflight check, the response carries the error of the first
      failing guard, and then Twilio is not called. */
  lemma GuardOrder(req: SendRequest, env: Env, gateway: Lookup, reply: Fetch<TwilioReply>,
                   ledger: seq<MessageRow>, update: WriteResult, now: nat)
    requires req.httpMethod != "OPTIONS"
    ensures var out := Handle(req, env, gateway, reply, ledger, update, now);
      match FirstFailure(Guards(req, env, gateway))
      case Some(e) => out.response == Reject(e) && out.calls == [] && out.ledger == ledger
      case None => |out.calls| == 1
  {
    var checks := Guards(req, env, gateway);
    if !checks[0].passes {
      FirstFailureAt(checks, 0);
    } else if !checks[1].passes {
      FirstFailureAt(checks, 1);
    } else if !checks[2].passes {
      FirstFailureAt(checks, 2);
    } else {
      LateGuards(req, env, gateway, reply, ledger, update, now);
    }
  }

  lemma LateGuards(req: SendRequest, env: Env, gateway: Lookup, reply: Fetch<TwilioReply>,
                   ledger: seq<MessageRow>, update: WriteResult, now: nat)
    requires req.httpMethod != "OPTIONS"
    requires var checks := Guards(req, env, gateway);
      checks[0].passes && checks[1].passes && checks[2].passes
    ensures var out := Handle(req, env, gateway, reply, ledger, update, now);
      match FirstFailure(Guards(req, env, gateway))
      case Some(e) => out.response == Reject(e) && out.calls == [] && out.ledger == ledger
      case None => |out.calls| == 1
  {
    var checks := Guards(req, env, gateway);
    if !checks[3].passes {
      FirstFailureAt(checks, 3);
    } else if !checks[4].passes {
      FirstFailureAt(checks, 4);
    } else if !checks[5].passes {
      FirstFailureAt(checks, 5);
    } else {
      FinalGuards(req, env, gateway, reply, ledger, update, now);
    }
  }

  lemma FinalGuards(req: SendRequest, env: Env, gateway: Lookup, reply: Fetch<TwilioReply>,
                    ledger: seq<MessageRow>, update: WriteResult, now: nat)
    requires req.httpMethod != "OPTIONS"
    requires var checks := Guards(req, env, gateway);
      checks[0].passes && checks[1].passes && checks[2].passes && checks[3].passes && checks[4].passes && checks[5].passes
    ensures var out := Handle(req, env, gateway, reply, ledger, update, now);
      match FirstFailure(Guards(req, env, gateway))
      case Some(e) => out.response == Reject(e) && out.calls == [] && out.ledger == ledger
      case None => |out.calls| == 1
  {
    var checks := Guards(req, env, gateway);
    if !checks[6].passes {
      FirstFailureAt(checks, 6);
    } else if !checks[7].passes {
      FirstFailureAt(checks, 7);
    } else {
      FirstFailureMeaning(checks);
    }
  }

  /** What a validated send reports for each provider answer: the thrown
      reason, or Twilio's message, or "Twilio API error: <status>", with no
      prefix. */
  lemma ProviderErrors(req: SendRequest, env: Env, gateway: Lookup, reply: Fetch<TwilioReply>,
                       ledger: seq<MessageRow>, update: WriteResult, now: nat)
    requires req.httpMethod != "OPTIONS" && FirstFailure(Guards(req, env, gateway)).None?
    ensures var out := Handle(req, env, gateway, reply, ledger, update, now);
      && (reply.Thrown? ==> out.response == Reject(reply.reason))
      && (reply.Answered? && !Ok2xx(reply.status) ==>
            out.response == BadRequest(Or(Field(reply.data, "message"), TwilioStatusError(reply.status))))
      && (reply.Answered? && Ok2xx(reply.status) <==> out.response.Ok?)
  {
    var checks := Guards(req, env, gateway);
    FirstFailureMeaning(checks);
    assert checks[0].passes && checks[1].passes && checks[2].passes && checks[3].passes;
    assert checks[4].passes && checks[5].passes && checks[6].passes && checks[7].passes;
  }

  /** A template wins over a message: with a template id the form carries
      `ContentSid` and no `Body`, even when a message is also given. */
  lemma TemplateWins(number: string, recipient: string, p: SendParams)
    requires Truthy(p.templateSid) && Truthy(p.message)
    ensures var form := Form(number, recipient, p);
      form.Some? && HasKey(form.value, "ContentSid") && !HasKey(form.value, "Body")
  {
    var form := Form(number, recipient, p);
    assert form.value[2].0 == "ContentSid";
  }

  /** The scenario of sending to +15551234567 from a gateway whose number is
      +15559876543: the form starts `From=whatsapp:+15559876543`,
      `To=whatsapp:+15551234567`. */
  lemma PrefixedNumbers(p: SendParams)
    requires Truthy(p.message)
    ensures Form("+15559876543", "+15551234567", p).value[..2]
            == [("From", "whatsapp:+15559876543"), ("To", "whatsapp:+15551234567")]
  {
    assert "whatsapp:" + "+15559876543" == "whatsapp:+15559876543";
    assert "whatsapp:" + "+15551234567" == "whatsapp:+15551234567";
  }

  /** A failed ledger update is not reported and leaves the ledger alone. */
  lemma LedgerErrorSwallowed(req: SendRequest, env: Env, gateway: Lookup, reply: Fetch<TwilioReply>,
                             ledger: seq<MessageRow>, now: nat, e: string)
    ensures Handle(req, env, gateway, reply, ledger, WriteError(e), now).response
            == Handle(req, env, gateway, reply, ledger, Written, now).response
    ensures Handle(req, env, gateway, reply, ledger, WriteError(e), now).ledger == ledger
  {
  }

  /** On success every pending row to that recipient on that gateway becomes
      sent, whatever its text; rows of other recipients or gateways, and
      rows no longer pending, are unchanged. */
  lemma SuccessMarksEveryPendingRowOfRecipient(req: SendRequest, env: Env, gateway: Lookup,
                                               reply: Fetch<TwilioReply>, ledger: seq<MessageRow>, now: nat)
    requires Handle(req, env, gateway, reply, ledger, Written, now).response.Ok?
    ensures var out := Handle(req, env, gateway, reply, ledger, Written, now);
      var p := req.body.value;
      && |out.ledger| == |ledger|
      && forall i :: 0 <= i < |ledger| ==>
           if ledger[i].gatewayId == p.gatewayId.value && ledger[i].recipient == p.recipient.value
              && ledger[i].status == Pending
           then out.ledger[i] == ledger[i].(status := Sent, sentAt := Some(now))
           else out.ledger[i] == ledger[i]
  {
  }
}

=== FILE: stripe_webhook.dfy ===
/** The stripe-webhook edge function: reject unsigned calls, let Stripe
    verify the signature, then apply the event to the `customer_subscriptions`
    and `payments` tables.

    Signature verification (`constructEvent`) is an input: either the event
    it produced or the message it threw. So are the two environment
    variables the Supabase client is built from. Each table write is an input too,
    telling whether the store accepted it. Dates are milliseconds since the
    epoch; `now` is the clock. */
module StripeWebhook {
  import opened Common
  import Gateway

  datatype SubscriptionStatus = Active | Cancelled | Expired

  /** A `customer_subscriptions` row. */
  datatype SubscriptionRow = SubscriptionRow(
    userId: string,
    planId: string,
    status: SubscriptionStatus,
    startDate: int,
    endDate: int,
    autoRenew: bool)

  /** A `payments` row; its status is always "completed" here. */
  datatype PaymentRow = PaymentRow(
    userId: string,
    planId: string,
    amount: real,
    status: string,
    transactionId: Option<string>,
    paymentDate: int)

  datatype Tables = Tables(subscriptions: seq<SubscriptionRow>, payments: seq<PaymentRow>)

  /** The fields of `event.data.object` the handler reads: the metadata of a
      checkout session or subscription, a session's `amount_total` (cents)
      and `payment_intent`, a subscription's `status` and
      `current_period_end` (seconds). */
  datatype StripeObject = StripeObject(
    metadata: Option<map<string, string>>,
    amountTotal: Option<int>,
    paymentIntent: Option<string>,
    status: Option<string>,
    currentPeriodEnd: int)

  datatype Event = Event(kind: string, data: StripeObject)

  /** What `constructEvent` does with the body and signature. */
  datatype Verification = Verified(event: Event) | Refused(reason: string)

  /** 400 "No signature", 200 `{ received: true }`, or 400 `{ error }`. */
  datatype Reply = NoSignature | Received | Failed(error: string)

  datatype Result = Result(reply: Reply, tables: Tables)

  const CheckoutCompleted := "checkout.session.completed"
  const SubscriptionUpdated := "customer.subscription.updated"
  const SubscriptionDeleted := "customer.subscription.deleted"

  const MissingMetadata := "Missing metadata"

  /** What supabase-js throws when `createClient` is given an empty URL or
      an empty key. */
  const UrlRequired := "supabaseUrl is required."
  const KeyRequired := "supabaseKey is required."

  /** Thirty days, the length of a new subscription. */
  const Period: int := 30 * 24 * 60 * 60 * 1000

  /** `toISOString` throws a RangeError with this message for a time outside
      the ECMAScript range of plus or minus 8.64e15 ms. */
  const InvalidTime := "Invalid time value"
  const MaxTime: int := 8_640_000_000_000_000

  predicate ValidTime(ms: int) {
    -MaxTime <= ms <= MaxTime
  }

  function StatusCode(r: Reply): nat {
    if r.Received? then 200 else 400
  }

  /** `const { userId, planId } = object.metadata || {}` followed by the
      truthiness check: the pair, when both are non-empty strings. */
  function Owner(o: StripeObject): (r: Option<(string, string)>)
    ensures r.Some? <==>
      o.metadata.Some? && Truthy(Field(o.metadata.value, "userId")) && Truthy(Field(o.metadata.value, "planId"))
    ensures r.Some? ==>
      r.value.0 == o.metadata.value["userId"] && r.value.1 == o.metadata.value["planId"]
      && r.value.0 != "" && r.value.1 != ""
  {
    var m := if o.metadata.Some? then o.metadata.value else map[];
    var user := Field(m, "userId");
    var plan := Field(m, "planId");
    if Truthy(user) && Truthy(plan) then Some((user.value, plan.value)) else None
  }

  predicate Owns(userId: string, planId: string, row: SubscriptionRow) {
    row.userId == userId && row.planId == planId
  }

  /** `amount_total ? amount_total / 100 : 0`: cents to currency units,
      with a missing or zero total recorded as 0. */
  function Amount(amountTotal: Option<int>): (r: real)
    ensures amountTotal.None? ==> r == 0.0
    ensures amountTotal.Some? ==> r * 100.0 == amountTotal.value as real
  {
    if amountTotal.Some? && amountTotal.value != 0 then amountTotal.value as real / 100.0 else 0.0
  }

  /** `checkout.session.completed`: insert an active, auto-renewing
      subscription running thirty days from now, then, only if that insert
      succeeded, a completed payment. */
  function OnCheckoutCompleted(session: StripeObject, t: Tables, subscriptionWrite: WriteResult,
                               paymentWrite: WriteResult, now: int): (out: Result)
    ensures out.reply != NoSignature
    ensures Owner(session).None? ==> out == Result(Failed(MissingMetadata), t)
    ensures out.tables.payments != t.payments ==> subscriptionWrite.Written?
    ensures out.reply.Received? <==>
      Owner(session).Some? && ValidTime(now) && ValidTime(now + Period)
      && subscriptionWrite.Written? && paymentWrite.Written?
    ensures out.reply.Received? ==>
      var (user, plan) := Owner(session).value;
      out.tables == Tables(
        t.subscriptions + [SubscriptionRow(user, plan, Active, now, now + Period, true)],
        t.payments + [PaymentRow(user, plan, Amount(session.amountTotal), "completed", session.paymentIntent, now)])
  {
    match Owner(session)
    case None => Result(Failed(MissingMetadata), t)
    case Some((user, plan)) =>
      if !ValidTime(now) || !ValidTime(now + Period) then Result(Failed(InvalidTime), t)
      else
        match subscriptionWrite
        case WriteError(e) => Result(Failed(e), t)
        case Written =>
          var subscriptions := t.subscriptions + [SubscriptionRow(user, plan, Active, now, now + Period, true)];
          match paymentWrite
          case WriteError(e) => Result(Failed(e), Tables(subscriptions, t.payments))
          case Written =>
            var payment := PaymentRow(user, plan, Amount(session.amountTotal), "completed", session.paymentIntent, now);
            Result(Received, Tables(subscriptions, t.payments + [payment]))
  }

  /** A subscription after a `customer.subscription.updated` event: active
      and auto-renewing when Stripe says "active", cancelled and not renewing
      otherwise, ending at the current period's end. */
  function Renewed(row: SubscriptionRow, stripeStatus: Option<string>, end: int): SubscriptionRow {
    var active := stripeStatus == Some("active");
    row.(status := if active then Active else Cancelled, endDate := end, autoRenew := active)
  }

  /** A subscription after a `customer.subscription.deleted` event. */
  function Ended(row: SubscriptionRow, now: int): SubscriptionRow {
    row.(status := Expired, endDate := now, autoRenew := false)
  }

  /** `customer.subscription.updated`: every row of the metadata's user and
      plan takes Stripe's status and period end. */
  function OnSubscriptionUpdated(subscription: StripeObject, t: Tables, write: WriteResult): (out: Result)
    ensures out.reply != NoSignature
    ensures out.tables.payments == t.payments
    ensures Owner(subscription).None? ==> out == Result(Failed(MissingMetadata), t)
    ensures out.reply.Failed? ==> out.tables == t
    ensures out.reply.Received? <==>
      Owner(subscription).Some? && ValidTime(subscription.currentPeriodEnd * 1000) && write.Written?
    ensures out.reply.Received? ==>
      var (user, plan) := Owner(subscription).value;
      var active := subscription.status == Some("active");
      && |out.tables.subscriptions| == |t.subscriptions|
      && forall i :: 0 <= i < |t.subscriptions| ==>
           var row := t.subscriptions[i];
           if Owns(user, plan, row)
           then && out.tables.subscriptions[i].userId == row.userId
                && out.tables.subscriptions[i].planId == row.planId
                && out.tables.subscriptions[i].startDate == row.startDate
                && (out.tables.subscriptions[i].status == Active <==> active)
                && (out.tables.subscriptions[i].status == Cancelled <==> !active)
                && out.tables.subscriptions[i].autoRenew == active
                && out.tables.subscriptions[i].endDate == subscription.currentPeriodEnd * 1000
           else out.tables.subscriptions[i] == row
  {
    match Owner(subscription)
    case None => Result(Failed(MissingMetadata), t)
    case Some((user, plan)) =>
      var end := subscription.currentPeriodEnd * 1000;
      if !ValidTime(end) then Result(Failed(InvalidTime), t)
      else
        match write
        case WriteError(e) => Result(Failed(e), t)
        case Written =>
          var rows := UpdateWhere(t.subscriptions, (row: SubscriptionRow) => Owns(user, plan, row),
                                  (row: SubscriptionRow) => Renewed(row, subscription.status, end));
          Result(Received, t.(subscriptions := rows))
  }

  /** `customer.subscription.deleted`: every row of the metadata's user and
      plan expires now and stops renewing. */
  function OnSubscriptionDeleted(subscription: StripeObject, t: Tables, write: WriteResult, now: int): (out: Result)
    ensures out.reply != NoSignature
    ensures out.tables.payments == t.payments
    ensures Owner(subscription).None? ==> out == Result(Failed(MissingMetadata), t)
    ensures out.reply.Failed? ==> out.tables == t
    ensures out.reply.Received? <==> Owner(subscription).Some? && ValidTime(now) && write.Written?
    ensures out.reply.Received? ==>
      var (user, plan) := Owner(subscription).value;
      && |out.tables.subscriptions| == |t.subscriptions|
      && forall i :: 0 <= i < |t.subscriptions| ==>
           var row := t.subscriptions[i];
           if Owns(user, plan, row)
           then out.tables.subscriptions[i]
                == SubscriptionRow(row.userId, row.planId, Expired, row.startDate, now, false)
           else out.tables.subscriptions[i] == row
  {
    match Owner(subscription)
    case None => Result(Failed(MissingMetadata), t)
    case Some((user, plan)) =>
      if !ValidTime(now) then Result(Failed(InvalidTime), t)
      else
        match write
        case WriteError(e) => Result(Failed(e), t)
        case Written =>
          var rows := UpdateWhere(t.subscriptions, (row: SubscriptionRow) => Owns(user, plan, row),
                                  (row: SubscriptionRow) => Ended(row, now));
          Result(Received, t.(subscriptions := rows))
  }

  /** `createClient(SUPABASE_URL ?? '', SUPABASE_SERVICE_ROLE_KEY ?? '')`:
      the message it throws, the URL being checked before the key, or None
      when the client is built. */
  function ClientError(env: Gateway.Env): (r: Option<string>)
    ensures r.None? <==> Gateway.Configured(env)
    ensures r.Some? ==> (r.value == UrlRequired <==> !Truthy(env.supabaseUrl))
  {
    if !Truthy(env.supabaseUrl) then Some(UrlRequired)
    else if !Truthy(env.serviceRoleKey) then Some(KeyRequired)
    else None
  }

  /** The webhook. `firstWrite` answers the first table write the event
      causes and `secondWrite` the second (only a checkout makes two). */
  function Handle(signature: Option<string>, verification: Verification, env: Gateway.Env, t: Tables,
                  firstWrite: WriteResult, secondWrite: WriteResult, now: int): (out: Result)
    // No signature header: 400 "No signature" and nothing written.
    ensures !Truthy(signature) <==> out.reply.NoSignature?
    ensures !Truthy(signature) ==> out.tables == t
    // A signature Stripe does not accept: 400 with its reason, nothing written.
    ensures Truthy(signature) && verification.Refused? ==> out == Result(Failed(verification.reason), t)
    // A verified event with no Supabase URL or key: 400 with the client's
    // message, nothing written.
    ensures Truthy(signature) && verification.Verified? && !Gateway.Configured(env) ==>
      out == Result(Failed(ClientError(env).value), t)
    // Only a checkout records a payment; only a checkout adds a subscription.
    ensures out.tables.payments != t.payments ==>
      verification.Verified? && verification.event.kind == CheckoutCompleted
    ensures |out.tables.subscriptions| != |t.subscriptions| ==>
      verification.Verified? && verification.event.kind == CheckoutCompleted
    ensures StatusCode(out.reply) == 200 ==>
      Truthy(signature) && verification.Verified? && Gateway.Configured(env)
    // A signed, verified event with a working client runs its kind's transition.
    ensures Truthy(signature) && verification.Verified? && Gateway.Configured(env)
            && verification.event.kind == CheckoutCompleted ==>
      out == OnCheckoutCompleted(verification.event.data, t, firstWrite, secondWrite, now)
    ensures Truthy(signature) && verification.Verified? && Gateway.Configured(env)
            && verification.event.kind == SubscriptionUpdated ==>
      out == OnSubscriptionUpdated(verification.event.data, t, firstWrite)
    ensures Truthy(signature) && verification.Verified? && Gateway.Configured(env)
            && verification.event.kind == SubscriptionDeleted ==>
      out == OnSubscriptionDeleted(verification.event.data, t, firstWrite, now)
  {
    if !Truthy(signature) then Result(NoSignature, t)
    else
      match verification
      case Refused(reason) => Result(Failed(reason), t)
      case Verified(event) =>
        if ClientError(env).Some? then Result(Failed(ClientError(env).value), t)
        else if event.kind == CheckoutCompleted then
          OnCheckoutCompleted(event.data, t, firstWrite, secondWrite, now)
        else if event.kind == SubscriptionUpdated then
          OnSubscriptionUpdated(event.data, t, firstWrite)
        else if event.kind == SubscriptionDeleted then
          OnSubscriptionDeleted(event.data, t, firstWrite, now)
        else Result(Received, t)
  }

  /** Any other event type is acknowledged and writes nothing. */
  lemma OtherEventsIgnored(signature: Option<string>, event: Event, env: Gateway.Env, t: Tables,
                           firstWrite: WriteResult, secondWrite: WriteResult, now: int)
    requires Truthy(signature) && Gateway.Configured(env)
    requires event.kind != CheckoutCompleted && event.kind != SubscriptionUpdated
    requires event.kind != SubscriptionDeleted
    ensures Handle(signature, Verified(event), env, t, firstWrite, secondWrite, now) == Result(Received, t)
  {
  }

  /** For each of the three handled events, metadata without a user or a
      plan fails with "Missing metadata" and writes nothing. */
  lemma MetadataRequired(signature: Option<string>, event: Event, env: Gateway.Env, t: Tables,
                         firstWrite: WriteResult, secondWrite: WriteResult, now: int)
    requires Truthy(signature) && Gateway.Configured(env)
    requires event.kind == CheckoutCompleted || event.kind == SubscriptionUpdated
             || event.kind == SubscriptionDeleted
    requires event.data.metadata.None? || !Truthy(Field(event.data.metadata.value, "userId"))
             || !Truthy(Field(event.data.metadata.value, "planId"))
    ensures Handle(signature, Verified(event), env, t, firstWrite, secondWrite, now) == Result(Failed(MissingMetadata), t)
  {
  }

  /** A signed, verified checkout with a working client and both inserts
      accepted is acknowledged and records one active subscription and one
      payment for the metadata's user and plan. */
  lemma CheckoutRecordsSubscriptionAndPayment(signature: Option<string>, session: StripeObject, env: Gateway.Env,
                                              t: Tables, now: int)
    requires Truthy(signature) && Gateway.Configured(env)
    requires Owner(session).Some? && ValidTime(now) && ValidTime(now + Period)
    ensures var out := Handle(signature, Verified(Event(CheckoutCompleted, session)), env, t, Written, Written, now);
      && out.reply == Received
      && |out.tables.subscriptions| == |t.subscriptions| + 1
      && |out.tables.payments| == |t.payments| + 1
      && out.tables.subscriptions[|t.subscriptions|].status == Active
      && out.tables.payments[|t.payments|].userId == Owner(session).value.0
  {
  }

  /** Without a Supabase URL or key no call is acknowledged and no table
      changes, whatever event arrives. */
  lemma UnconfiguredStoreRefusesEverything(signature: Option<string>, verification: Verification, env: Gateway.Env,
                                           t: Tables, firstWrite: WriteResult, secondWrite: WriteResult, now: int)
    requires !Gateway.Configured(env)
    ensures var out := Handle(signature, verification, env, t, firstWrite, secondWrite, now);
      out.tables == t && StatusCode(out.reply) == 400
  {
  }

  /** A payment that fails to record still leaves the new subscription in
      place, and the caller is told 400: the two inserts are not atomic. */
  lemma PaymentFailureKeepsSubscription(session: StripeObject, t: Tables, now: int, e: string)
    requires Owner(session).Some? && ValidTime(now) && ValidTime(now + Period)
    ensures var out := OnCheckoutCompleted(session, t, Written, WriteError(e), now);
      && out.reply == Failed(e)
      && out.tables.payments == t.payments
      && |out.tables.subscriptions| == |t.subscriptions| + 1
      && out.tables.subscriptions[|t.subscriptions|].status == Active
  {
  }

  /** Stripe may deliver an event more than once. Redelivering a checkout
      inserts a second subscription and a second payment. */
  lemma CheckoutReplayDuplicates(session: StripeObject, t: Tables, now: int, later: int)
    requires Owner(session).Some? && ValidTime(now) && ValidTime(now + Period)
    requires ValidTime(later) && ValidTime(later + Period)
    ensures var once := OnCheckoutCompleted(session, t, Written, Written, now).tables;
      var twice := OnCheckoutCompleted(session, once, Written, Written, later).tables;
      |twice.subscriptions| == |t.subscriptions| + 2 && |twice.payments| == |t.payments| + 2
  {
  }

  /** Redelivering an update leaves the tables as the first delivery did. */
  lemma {:induction false} UpdateReplayIdempotent(subscription: StripeObject, t: Tables)
    requires OnSubscriptionUpdated(subscription, t, Written).reply.Received?
    ensures var once := OnSubscriptionUpdated(subscription, t, Written).tables;
      OnSubscriptionUpdated(subscription, once, Written).tables == once
  {
    var once := OnSubscriptionUpdated(subscription, t, Written).tables;
    var twice := OnSubscriptionUpdated(subscription, once, Written).tables;
    var (user, plan) := Owner(subscription).value;
    assert |twice.subscriptions| == |once.subscriptions|;
    forall i | 0 <= i < |once.subscriptions|
      ensures twice.subscriptions[i] == once.subscriptions[i]
    {
      if Owns(user, plan, t.subscriptions[i]) {
        assert Owns(user, plan, once.subscriptions[i]);
      }
    }
  }

  /** Redelivering a deletion at a later time moves the end date but
      changes nothing else. */
  lemma {:induction false} DeleteReplayOnlyMovesEnd(subscription: StripeObject, t: Tables, now: int, later: int)
    requires OnSubscriptionDeleted(subscription, t, Written, now).reply.Received? && ValidTime(later)
    ensures var once := OnSubscriptionDeleted(subscription, t, Written, now).tables;
      var twice := OnSubscriptionDeleted(subscription, once, Written, later).tables;
      && |twice.subscriptions| == |once.subscriptions|
      && forall i :: 0 <= i < |once.subscriptions| ==>
           twice.subscriptions[i].(endDate := once.subscriptions[i].endDate) == once.subscriptions[i]
  {
    var once := OnSubscriptionDeleted(subscription, t, Written, now).tables;
    var twice := OnSubscriptionDeleted(subscription, once, Written, later).tables;
    var (user, plan) := Owner(subscription).value;
    forall i | 0 <= i < |once.subscriptions|
      ensures twice.subscriptions[i].(endDate := once.subscriptions[i].endDate) == once.subscriptions[i]
    {
      if Owns(user, plan, t.subscriptions[i]) {
        assert Owns(user, plan, once.subscriptions[i]);
      }
    }
  }

  /** Every subscription row renews exactly when it is active. */
  predicate RenewsIffActive(t: Tables) {
    forall i :: 0 <= i < |t.subscriptions| ==>
      (t.subscriptions[i].autoRenew <==> t.subscriptions[i].status == Active)
  }

  /** The webhook keeps "auto_renew exactly when active": a checkout adds an
      active renewing row, an update sets both from the same test, a
      deletion sets expired and not renewing. */
  lemma {:induction false} RenewsIffActivePreserved(signature: Option<string>, verification: Verification,
                                                    env: Gateway.Env, t: Tables,
                                                    firstWrite: WriteResult, secondWrite: WriteResult, now: int)
    requires RenewsIffActive(t)
    ensures RenewsIffActive(Handle(signature, verification, env, t, firstWrite, secondWrite, now).tables)
  {
    var out := Handle(signature, verification, env, t, firstWrite, secondWrite, now);
    if Truthy(signature) && verification.Verified? && Gateway.Configured(env)
       && Owner(verification.event.data).Some? {
      var event := verification.event;
      var (user, plan) := Owner(event.data).value;
      if event.kind == CheckoutCompleted {
        forall i | 0 <= i < |out.tables.subscriptions|
          ensures out.tables.subscriptions[i].autoRenew <==> out.tables.subscriptions[i].status == Active
        {
          if i < |t.subscriptions| {
            assert out.tables.subscriptions[i] == t.subscriptions[i];
          }
        }
      } else if event.kind == SubscriptionUpdated || event.kind == SubscriptionDeleted {
        forall i | 0 <= i < |out.tables.subscriptions|
          ensures out.tables.subscriptions[i].autoRenew <==> out.tables.subscriptions[i].status == Active
        {
          if !Owns(user, plan, t.subscriptions[i]) {
            assert out.tables.subscriptions[i] == t.subscriptions[i];
          }
        }
      }
    }
  }
}

=== FILE: user_management.dfy ===
/** The decision logic of the admin User Management page: adding a user
    (auth sign-up plus a `users` profile row), editing one (auth update plus
    profile update) and adding credits.

    The `users` lookups, the auth calls and the writes are inputs; each
    mutation returns the calls it would make and the error it would show. */
module UserManagement {
  import opened Common
  import Decimal

  /** A `users` profile row. */
  datatype UserRow = UserRow(id: string, email: string, role: string, credits: int)

  // ------------------------------------------------------------- add user

  datatype NewUser = NewUser(email: string, password: string, role: string)

  /** What `supabase.auth.signUp` answers. */
  datatype SignUpResult = SignUpError(message: string) | SignedUp(userId: Option<string>)

  datatype AddOutcome = AddOutcome(
    error: Option<string>,
    signUp: Option<(string, string)>,
    inserted: Option<UserRow>)

  const EmailTaken := "A user with this email already exists"
  const AccountFailed := "Failed to create user account"

  /** `addUserMutation`. `emailInUse` is whether the lookup by email found a
      row, `profileExists` whether the lookup by the new id did. */
  function AddUser(u: NewUser, emailInUse: bool, signUp: SignUpResult, profileExists: bool,
                   insert: WriteResult): (out: AddOutcome)
    // An email already in `users` is refused before any account is created.
    ensures emailInUse ==> out == AddOutcome(Some(EmailTaken), None, None)
    ensures out.signUp.Some? <==> !emailInUse
    ensures out.signUp.Some? ==> out.signUp.value == (u.email, u.password)
    // A profile is inserted only for a new account without one, with the
    // chosen role and no credits.
    ensures out.inserted.Some? <==>
      !emailInUse && signUp.SignedUp? && signUp.userId.Some? && !profileExists
    ensures out.inserted.Some? ==> out.inserted.value == UserRow(signUp.userId.value, u.email, u.role, 0)
    // Success: signed up, and the profile was already there or got stored.
    ensures out.error.None? <==>
      !emailInUse && signUp.SignedUp? && signUp.userId.Some? && (profileExists || insert.Written?)
  {
    if emailInUse then AddOutcome(Some(EmailTaken), None, None)
    else
      var call := Some((u.email, u.password));
      match signUp
      case SignUpError(e) => AddOutcome(Some(e), call, None)
      case SignedUp(None) => AddOutcome(Some(AccountFailed), call, None)
      case SignedUp(Some(id)) =>
        if profileExists then AddOutcome(None, call, None)
        else
          var row := UserRow(id, u.email, u.role, 0);
          match insert
          case WriteError(e) => AddOutcome(Some(e), call, Some(row))
          case Written => AddOutcome(None, call, Some(row))
  }

  /** A sign-up that returns no user is reported as "Failed to create user
      account" and nothing is inserted. */
  lemma SignUpWithoutUser(u: NewUser, profileExists: bool, insert: WriteResult)
    ensures AddUser(u, false, SignedUp(None), profileExists, insert).error == Some(AccountFailed)
    ensures AddUser(u, false, SignedUp(None), profileExists, insert).inserted.None?
  {
  }

  // ------------------------------------------------------------ edit user

  /** The edit modal's fields. */
  datatype EditForm = EditForm(email: string, password: string, role: string)

  /** The `data` the Save button sends; an absent field is `undefined`. */
  datatype EditPayload = EditPayload(email: Option<string>, password: Option<string>, role: string)

  /** `handleEditClick`: the form starts from the user's email and role,
      with an empty password. */
  function EditFormFor(user: UserRow): (f: EditForm)
    ensures f.password == ""
    ensures f.email == user.email && f.role == user.role
  {
    EditForm(user.email, "", user.role)
  }

  /** The Save button's payload: the email only when it differs from the
      current one, the password only when one was typed. */
  function EditPayloadOf(user: UserRow, form: EditForm): (p: EditPayload)
    ensures p.email.Some? <==> form.email != user.email
    ensures p.email.Some? ==> p.email.value == form.email
    ensures p.password.Some? <==> form.password != ""
    ensures p.password.Some? ==> p.password.value == form.password
    ensures p.role == form.role
  {
    EditPayload(if form.email != user.email then Some(form.email) else None,
                if form.password != "" then Some(form.password) else None,
                form.role)
  }

  /** An auth-user update: the fields to change. */
  datatype AuthUpdate = AuthUpdate(userId: string, email: Option<string>, password: Option<string>)

  /** A `users` update `{ email, role }`; an `undefined` email is dropped
      when the update is serialised, so it leaves the column alone. */
  datatype ProfileUpdate = ProfileUpdate(userId: string, email: Option<string>, role: string)

  datatype UpdateOutcome = UpdateOutcome(
    error: Option<string>,
    authUpdate: Option<AuthUpdate>,
    profileUpdate: Option<ProfileUpdate>)

  /** `updateUserMutation`: an auth update when the payload carries a
      truthy email or password, holding only those; then the profile update. */
  function UpdateUser(id: string, p: EditPayload, authResult: WriteResult, profileResult: WriteResult): (out: UpdateOutcome)
    ensures out.authUpdate.Some? <==> Truthy(p.email) || Truthy(p.password)
    ensures out.authUpdate.Some? ==>
      && out.authUpdate.value.userId == id
      && (out.authUpdate.value.email.Some? <==> Truthy(p.email))
      && (out.authUpdate.value.password.Some? <==> Truthy(p.password))
      && (Truthy(p.email) ==> out.authUpdate.value.email == p.email)
      && (Truthy(p.password) ==> out.authUpdate.value.password == p.password)
    // A refused auth update stops before the profile is touched.
    ensures out.profileUpdate.Some? <==> out.authUpdate.None? || authResult.Written?
    ensures out.profileUpdate.Some? ==> out.profileUpdate.value == ProfileUpdate(id, p.email, p.role)
    ensures out.error.None? <==>
      (out.authUpdate.None? || authResult.Written?) && profileResult.Written?
  {
    var auth :=
      if Truthy(p.email) || Truthy(p.password) then
        Some(AuthUpdate(id, if Truthy(p.email) then p.email else None,
                            if Truthy(p.password) then p.password else None))
      else None;
    if auth.Some? && authResult.WriteError? then UpdateOutcome(Some(authResult.message), auth, None)
    else
      var profile := Some(ProfileUpdate(id, p.email, p.role));
      match profileResult
      case WriteError(e) => UpdateOutcome(Some(e), auth, profile)
      case Written => UpdateOutcome(None, auth, profile)
  }

  /** The row a profile update leaves behind. */
  function ApplyProfile(row: UserRow, u: ProfileUpdate): UserRow {
    row.(email := if u.email.Some? then u.email.value else row.email, role := u.role)
  }

  /** Saving the edit form stores exactly what the form shows: its email
      and role end up in the profile row, credits and id untouched. */
  lemma SavedProfileMatchesForm(user: UserRow, form: EditForm)
    ensures var p := EditPayloadOf(user, form);
      ApplyProfile(user, ProfileUpdate(user.id, p.email, p.role))
      == UserRow(user.id, form.email, form.role, user.credits)
  {
  }

  /** Opening the editor and saving without changes sends no auth update and
      leaves the profile row as it was. */
  lemma {:induction false} UnchangedSaveIsNoOp(user: UserRow, authResult: WriteResult, profileResult: WriteResult)
    ensures var out := UpdateUser(user.id, EditPayloadOf(user, EditFormFor(user)), authResult, profileResult);
      && out.authUpdate.None?
      && out.profileUpdate.Some?
      && ApplyProfile(user, out.profileUpdate.value) == user
  {
    var p := EditPayloadOf(user, EditFormFor(user));
    assert p.email.None? && p.password.None?;
    SavedProfileMatchesForm(user, EditFormFor(user));
  }

  /** Clearing the email field sends `""`: it is falsy, so the auth email
      is kept, yet the profile's email is overwritten with the empty string. */
  lemma ClearedEmailOnlyReachesProfile(user: UserRow, authResult: WriteResult)
    requires user.email != ""
    ensures var p := EditPayloadOf(user, EditForm("", "", user.role));
      var out := UpdateUser(user.id, p, authResult, Written);
      && out.authUpdate.None?
      && ApplyProfile(user, out.profileUpdate.value).email == ""
  {
  }

  // -------------------------------------------------------------- credits

  /** The credits field: `parseInt(value) || 0`. */
  function CreditAmount(text: string): (n: int)
    ensures Decimal.ParseInt(text).None? ==> n == 0
    ensures Decimal.ParseInt(text).Some? ==> n == Decimal.ParseInt(text).value
  {
    Decimal.ParseIntOrZero(text)
  }

  /** A `users` update `{ credits }`. */
  datatype CreditsUpdate = CreditsUpdate(userId: string, credits: int)

  /** "Add Credits": the new balance written is the current one plus the
      amount in the field. */
  function AddCredits(user: UserRow, text: string): (u: CreditsUpdate)
    ensures u.userId == user.id
    ensures u.credits - user.credits == CreditAmount(text)
  {
    CreditsUpdate(user.id, user.credits + CreditAmount(text))
  }

  /** Typing a whole number adds exactly that many credits. */
  lemma {:induction false} TypedAmountAdded(user: UserRow, n: nat)
    ensures AddCredits(user, Decimal.NatToString(n)).credits == user.credits + n
  {
    Decimal.ParseIntReadsRenderedNumber(n, "");
    assert Decimal.NatToString(n) + "" == Decimal.NatToString(n);
  }

  /** The field's `min="0"` is only a hint: a typed negative number takes
      credits away. */
  lemma {:induction false} NegativeAmountSubtracts(user: UserRow, n: nat)
    ensures AddCredits(user, "-" + Decimal.NatToString(n)).credits == user.credits - n
  {
    Decimal.ParseIntReadsRenderedNegative(n, "");
    assert "-" + Decimal.NatToString(n) + "" == "-" + Decimal.NatToString(n);
  }

  /** A cleared or non-numeric field adds nothing. */
  lemma {:induction false} NonNumericAddsNothing(user: UserRow, text: string)
    requires forall i :: 0 <= i < |text| ==> !Decimal.IsDigit(text[i])
    ensures AddCredits(user, text) == CreditsUpdate(user.id, user.credits)
  {
    Decimal.NoDigitsParsesAsZero(text);
  }

  /** A fractional or exponent entry keeps only its leading whole number:
      "2.5" adds 2 and "1e3" adds 1. */
  lemma {:induction false} LeadingIntegerOnly(user: UserRow)
    ensures AddCredits(user, "2.5").credits == user.credits + 2
    ensures AddCredits(user, "1e3").credits == user.credits + 1
  {
    Decimal.ParseIntReadsRenderedNumber(2, ".5");
    assert Decimal.NatToString(2) + ".5" == "2.5";
    Decimal.ParseIntReadsRenderedNumber(1, "e3");
    assert Decimal.NatToString(1) + "e3" == "1e3";
  }
}
